=== FILE: README.md ===
# Auction assignment and budget ledger

A Dafny model of the core of a cricket-auction backend. Administrators create
tournaments and teams with budgets and load a player roster from a
spreadsheet. An auctioneer then assigns players to teams against each team's
remaining budget. The model covers the part with real invariants: the budget
ledger kept by assigning, adding, removing and deleting players and deleting
teams, the budget rebase, the captain choice, the roster upload's per-row
validation and counting, and the auction status.

The handlers run SQL against SQLite. Here the database is an
immutable `Store` (`store.dfy`):

- a map from team id to `Team(tournament, name, total, remaining, captain, viceCaptain)`;
- a map from `PlayerKey(tournament, empId)` to `Player(name, kind, team, bid, isAssigned)`;
- the set of existing tournament ids and the next id the teams table will issue.

Keying players by `(tournament, emp_id)` makes the schema's uniqueness of
emp_id per tournament hold by construction. Each handler is a pure function
returning `Result`. `Ok` carries the store the handler commits. `Err` names
the failure, and the caller keeps its store, because every handler raises
before its commit. Budgets and bids are exact `real`s.

`Valid(s)` gathers the invariants. These are:

- `is_assigned` agrees with `team_id` being set;
- an unassigned player has bid 0;
- a player's team exists and belongs to the player's tournament;
- team ids are positive and below the next id;
- team names are unique per tournament;
- the ledger: `remaining == total - Spent(players, id)` for every team.

`Spent` is the sum of the bids of the team's players. It is a sum over a map
(`sums.dfy`), which does not depend on the order of summation.

Modules follow the source files:

- `auction.dfy` models `routers/auction.py`;
- `teams.dfy` models `routers/teams.py`;
- `players.dfy` models `routers/players.py`;
- `text.dfy` holds the Python string functions the upload relies on;
- `amended.dfy` holds the three findings below and their corrections;
- `session.dfy` applies any sequence of requests, using the corrected
  operations, and proves that `Valid` holds throughout.

Behaviours of the code worth stating plainly:

- The assign handler has a single failure for a player that is missing or
  already assigned (`NotFoundOrAlreadyAssigned`); the two cases are not told
  apart.
- Roster rows are validated inside the upload handler, so the validation is
  part of the model.
- The bounds `0 <= remaining <= total` are not kept by the code. A rebase
  below the amount spent drives `remaining` negative. This is left as it is,
  and `Teams.RebaseBelowSpentOverdraws` exhibits it. Negative bids are a
  finding (below).
- The ledger equation itself survives negative bids. What the code breaks is
  the bounds.
- Tournament deletion does not cascade, because foreign keys are never
  switched on.

## Model

| member | source | states |
|---|---|---|
| Store.NewPlayer | database.py:54-66 | an inserted player takes the column defaults: no team, bid 0, not assigned |
| Store.Ledger | database.py:38-48 | every team's remaining budget equals its total budget minus the bids of the players whose team_id is that team |
| Store.Valid | database.py:38-66 | the store invariants: `is_assigned` agrees with `team_id`, unassigned players carry the default bid 0, a player's team exists in its tournament, team ids come from AUTOINCREMENT, UNIQUE(tournament_id, name) on teams, and the ledger |
| Store.LedgerIdleTeamFull | database.py:38-66 | under the ledger invariant (remaining equals total minus the bids of the team's players, which every handler keeps; see `Store.Ledger`), a team no player sits on has its whole budget left |
| Auction.Assign | routers/auction.py:17-51 | fails with TeamNotFound when no team matches (team, tournament); fails with InsufficientBudget exactly when remaining < bid, so remaining == bid succeeds; succeeds only for an existing, unassigned player, otherwise fails with NotFoundOrAlreadyAssigned and debits nothing; on success the player gets the team, the bid and the assigned flag, the team loses exactly the bid, and no other player or team changes |
| Auction.AssignPreservesValid | routers/auction.py:31-49 | assignment keeps the ledger and the other invariants |
| Auction.AssignAtMostOnce | routers/auction.py:31-44 | once a player is assigned, any further assignment of it fails, whatever the team or bid |
| Auction.Status | routers/auction.py:65-86 | total is the number of the tournament's players and assigned the number of those with is_assigned set; remaining = total - assigned; complete exactly when total == assigned, which is exactly when every player of the tournament is assigned; a tournament with no players gives (0, 0, 0, complete) |
| Auction.AssignAdvancesStatus | routers/auction.py:31-86 | a successful assignment raises the tournament's assigned count by one and keeps its total; other tournaments are unchanged |
| Teams.CreateTeam | routers/teams.py:22-50 | a missing tournament gives TournamentNotFound; a name already used in the tournament gives DuplicateTeamName and inserts nothing; creation succeeds exactly when the tournament exists and the name is free, and then the next AUTOINCREMENT id holds a team with remaining == total == budget, and nothing else changes |
| Teams.CreateTeamPreservesValid | routers/teams.py:29-35 | creation keeps name uniqueness and the ledger, since the new team has spent nothing |
| Teams.Rebase | routers/teams.py:80-86 | the new total is set and the amount spent (total - remaining) is preserved |
| Teams.RebaseBelowSpentOverdraws | routers/teams.py:80-86 | a new total below the amount spent gives a negative remaining budget, which is not guarded |
| Teams.UpdateTeam | routers/teams.py:63-88 | a missing team gives TeamNotFound; a name used by another team of the tournament gives DuplicateTeamName; the update succeeds exactly when the team exists and the name is free among the other teams, and then the name is set and, only when a total is given, the budget is rebased; players, other teams, tournaments and the id counter are untouched |
| Teams.UpdateTeamPreservesValid | routers/teams.py:73-86 | rename and rebase keep the invariants |
| Teams.DeleteTeam | routers/teams.py:103-119 | deletion fails with TeamNotFound exactly when the team is missing and succeeds exactly when it exists; then every player of the team becomes unassigned with bid 0, the team is removed, every other team keeps its budget, and other players are unchanged |
| Teams.DeleteTeamPreservesValid | routers/teams.py:111-119 | forced unassignment plus deletion keeps the invariants |
| Teams.AddPlayerToTeam | routers/teams.py:138-177 | a missing team gives TeamNotFound; remaining < bid gives InsufficientBudget; an emp_id already in the tournament gives DuplicateEmpId with no insert and no debit; the add succeeds exactly when none of these holds, and then inserts an assigned player with the bid, lowers the team's remaining by exactly the bid, and leaves the rest of that team, all other teams, and all other players as they were |
| Teams.AddPlayerToTeamPreservesValid | routers/teams.py:152-166 | a manual add keeps the invariants |
| Teams.RemovePlayerFromTeam | routers/teams.py:190-210 | succeeds exactly for a player on that exact team, otherwise PlayerNotFound with no credit; credits the player's stored bid back to the team, leaving the rest of the team row as it was, and deletes the player |
| Teams.RemovePlayerFromTeamPreservesValid | routers/teams.py:201-210 | removal keeps the invariants |
| Teams.AssignThenRemoveRestoresBudgets | routers/teams.py:201-204 | removing a just-assigned player succeeds and restores every team exactly; only the player row is gone |
| Teams.AddThenRemoveIsIdentity | routers/teams.py:152-210 | removing a just-added player gives back exactly the store before the add |
| Teams.SetCaptain | routers/teams.py:229-266 | a missing team gives TeamNotFound; a given captain not on this team gives CaptainNotOnTeam; otherwise a given vice-captain not on this team gives ViceCaptainNotOnTeam; in both cases nothing changes; success writes both fields as received and changes nothing else |
| Teams.SetCaptainPreservesValid | routers/teams.py:262-266 | choosing captains keeps the invariants |
| Players.UpdatePlayer | routers/players.py:180-206 | fails with PlayerNotFound exactly when the player is missing and succeeds exactly when it exists; only the supplied name and/or type change; team, bid and assigned flag never change; other players and all teams are untouched |
| Players.UpdateNothingIsIdentity | routers/players.py:188-206 | an update with no fields supplied changes nothing |
| Players.UpdatePlayerPreservesValid | routers/players.py:191-204 | editing details keeps the invariants |
| Players.DeletePlayer | routers/players.py:220-240 | fails with PlayerNotFound exactly when the player is missing and succeeds exactly when it exists; the player's team is credited its bid only when team id and bid are both non-zero, the rest of that team row is kept; the player is removed; no other player changes |
| Players.DeletePlayerPreservesValid | routers/players.py:230-240 | credit-then-delete keeps the invariants |
| Players.AssignThenDeleteRestoresBudgets | routers/players.py:230-240 | deleting a just-assigned player restores every team's budget exactly |
| Players.CleanRow | routers/players.py:107-117 | the three cells are stripped; a row is accepted exactly when none is empty, "nan" or "none" in any case; the first absent cell in the order emp_id, name, type names the error |
| Players.AbsentExamples | routers/players.py:112-117 | "NaN" and "NONE" count as absent and "Nan0" does not |
| Players.ImportRowRule | routers/players.py:106-134 | checking and admitting one row as the upload does: it is added exactly when it is valid and its stripped emp_id is new in the tournament; an added row is a default unassigned player; a skipped row changes nothing and is skipped for its validation error, or, when valid, as a duplicate naming the emp_id cell as given |
| Players.ImportRows | routers/players.py:105-134 | one outcome per row; existing players are never modified; the keys afterwards are exactly the keys before plus the stripped keys of the valid rows; every new player is an unassigned player of the tournament; the number of players grows by the number added |
| Players.ImportRowsOutcome | routers/players.py:105-134 | row i failing validation is skipped for that reason; a valid row i is added exactly when its key is neither stored already nor taken by an earlier valid row, and is otherwise skipped as a duplicate naming the emp_id cell as given; an added row's player is in the result with the row's stripped name and type |
| Players.ImportRowsNewcomers | routers/players.py:105-125 | every inserted player comes from a valid row, stored under that row's stripped emp_id with its stripped name and type |
| Players.Tally | routers/players.py:100-134 | added + skipped == number of rows |
| Players.TallyCountsAdded | routers/players.py:100-134 | the added count is the number of Added outcomes and the skipped count the number of the others |
| Players.RowErrors | routers/players.py:127-134 | one error line per skipped row: as many lines as skipped rows, each carrying the spreadsheet row number of a row that was skipped for that reason, in strictly increasing row order |
| Players.RowErrorsComplete | routers/players.py:127-134 | every skipped row has its line, numbered from the first spreadsheet row |
| Players.ReportErrors | routers/players.py:152-155 | no errors gives no list; otherwise the first ten errors in order, then one line counting the rest when there are more than ten |
| Players.ReportAccountsForAll | routers/players.py:152-155 | the truncated list accounts for every error: listed lines plus the trailing count equal the number of errors |
| Players.AllowedFileIff | routers/players.py:45-52 | for a name stem.suffix whose stem has a non-dot character in its last path component ("roster." included) the type check passes exactly when the lower-cased suffix is csv, xlsx or xls |
| Players.AllowedFile | routers/players.py:45-48 | an accepted file name has an extension of a dot and three or four further characters |
| Players.WithoutTournament | routers/players.py:94-98 | replace mode removes exactly the players of the tournament and keeps all others unchanged |
| Players.Upload | routers/players.py:34-157 | file type checked first (InvalidFileType), then the tournament (TournamentNotFound), then that rows exist (EmptyFile); the report carries the file name, the mode and the lower-cased extension as file type; replace mode starts from the roster without the tournament's players and credits no team; afterwards the keys are exactly the starting keys plus the stripped keys of the valid rows, and each new player is an unassigned player built from a valid row's stripped cells; the stored players are exactly those of the row-by-row import, so of two valid rows sharing an emp_id the first is kept and the second skipped as a duplicate; the added count is the number of new distinct keys; added + skipped == total rows; teams never change; the error list is present exactly when a row was skipped, and it is the per-row errors numbered from line 2, cut to the first ten plus a count of the rest |
| Players.AppendUploadPreservesValid | routers/players.py:100-134 | an upload in append mode keeps every invariant |
| Text.Strip | routers/players.py:107-109 | the result is the input with only whitespace cut from both ends, and neither starts nor ends with whitespace |
| Text.Lower | routers/players.py:112-116 | lower-casing keeps the length and maps each character by itself (ASCII letters to lower case, all else kept) |
| Text.StripFixedPoints | routers/players.py:107-109 | a string is its own strip exactly when it has no surrounding whitespace; stripping is idempotent |
| Text.Extension | routers/players.py:46 | the extension is empty or a dot-led suffix of the name with no further dot or slash, and a non-empty extension is preceded in the last path component by a character other than a dot; conversely the extension is empty only when no dot follows such a character in the last path component |
| Text.ExtensionOfJoin | routers/players.py:46 | the extension of stem + "." + suffix is "." + suffix whenever the stem's last path component holds a character other than a dot, trailing dots allowed ("roster..csv" has extension ".csv") |
| Text.HiddenNameHasNoExtension | routers/players.py:46-52 | a name made only of leading dots and one suffix, such as ".csv" or "..csv", has no extension, so it is rejected |
| Amended.NegativeAssignOverfills | routers/auction.py:27-49 | as written, a bid of -50 on a team with 100 of 100 left succeeds and leaves 150 remaining |
| Amended.AssignChecked | routers/auction.py:27-49 | corrected assign: a negative bid is refused; otherwise it is the handler's assign, and a team within its bounds stays within them |
| Amended.NegativeAddOverfills | routers/teams.py:148-164 | as written, a manual add at bid -50 succeeds and leaves 150 of a 100 budget |
| Amended.AddPlayerChecked | routers/teams.py:148-164 | corrected manual add: a negative bid is refused; otherwise it is the handler's add, and bounds are kept |
| Amended.ReplaceUploadDropsSpending | routers/players.py:94-98 | as written, after a replace upload from a valid store every team of the tournament keeps its budget row unchanged but has spent nothing, so the ledger then holds only for a team that had spent nothing before |
| Amended.ReplaceUploadBreaksLedger | routers/players.py:94-98 | as written, a replace upload of any non-empty roster over a valid store with one player bought for 40 succeeds and leaves the team at 60 of 100 with nothing spent, so the ledger fails |
| Amended.UploadCredited | routers/players.py:94-134 | corrected upload: same outcome and players as the handler; in replace mode every team of the tournament is restored to its total |
| Amended.UploadCreditedPreservesValid | routers/players.py:94-134 | the corrected upload keeps every invariant in both modes; the budget restored to each team equals what it had spent |
| Session.ApplyPreservesValid | main.py:31-35 | every modelled request, with the corrected assign, add and upload, keeps the store valid |
| Session.RunPreservesValid | main.py:31-35 | the ledger and the other invariants hold after any sequence of modelled requests |
| Session.EmptyStoreValid | database.py:38-68 | freshly created, empty tables with team ids issued from 1 satisfy every invariant |
| Session.RunFromEmptyStoreValid | database.py:38-68 | starting from freshly created, empty tables, the invariants hold after any sequence of modelled requests |

## Left out

- Connections, transactions and concurrency (database.py:5-9, commit and rollback): each handler is one atomic sequential step, and an error commits nothing.
- Authentication and roles (utils.py:55-87, routers/auth.py): the caller is assumed to be authorised already.
- Tournament CRUD and tournament deletion (routers/tournaments.py): these hold no budget logic. Foreign keys are never switched on, so deletion would not cascade. The set of tournaments is an input to the model.
- Reading players back (routers/players.py:13-29): it is a read-only listing.
- File parsing (utils.py:19-51): rows arrive as text triples. Several checks happen during parsing and are not modelled. These are parse failures, the missing-column check and the conversion of cells to text. The `df.empty` check is modelled as zero rows. The generic exception handler (routers/players.py:159-167) has no trigger in the model.
- The `image_filename` column and the user table: these are outside the ledger.
- Floating point: budgets and bids are exact reals, so NaN and infinite bids and rounding are not modelled.
- Unicode case mapping: only ASCII letters are lower-cased. This is exact for the words compared against ("nan", "none", ".csv", ".xlsx", ".xls"), because no other character lower-cases to one of their letters.
- `os.path.splitext` uses the POSIX rule: "/" is the only separator.
- HTTP status codes and message texts: each failure is an `Error` constructor.
- A duplicate name in an update raises an uncaught integrity error, which the server reports as a 500 without committing. It is modelled as `DuplicateTeamName`.
- Request bodies are typed in the model. A missing key in an untyped body (a KeyError) is not modelled, and captain ids are optional strings.
- Teams.CreateTeam: the new id is fresh only under the id invariant, as with AUTOINCREMENT. A store that breaks the invariant could have a team overwritten.

## Findings

| source | as written | input that shows it | evidently intended | confidence | as-written member | corrected member |
|---|---|---|---|---|---|---|
| routers/auction.py:27 | a negative bid passes `remaining < bid`, and the debit then raises the remaining budget | team with 100 of 100 left; assign bid -50; remaining becomes 150 | bids below zero are refused, so remaining never exceeds total | medium, not executed | Amended.NegativeAssignOverfills | Amended.AssignChecked |
| routers/teams.py:148 | the same for a manual add | team with 100 of 100 left; add a new player at bid -50; remaining becomes 150 | bids below zero are refused | medium, not executed | Amended.NegativeAddOverfills | Amended.AddPlayerChecked |
| routers/players.py:94-98 | replace mode, which is the handler's default (routers/players.py:35), deletes assigned players without crediting their teams | team at 60 of 100 with one player bought for 40; replace upload of any non-empty roster; the player is gone but remaining stays 60 | the deleted players' bids are credited back, as delete_player does | medium, not executed | Amended.ReplaceUploadBreaksLedger | Amended.UploadCredited |

=== FILE: amended.dfy ===
/** Three gaps in the handlers, each shown on a concrete store, and the
    corrected operations the session model uses instead:
    - in assign and in the manual add, a negative bid passes the budget
      check and raises the team's remaining budget above its total;
    - a "replace" upload deletes assigned players without crediting their
      teams, which breaks the ledger. */
module Amended {
  import opened Results
  import opened Store
  import opened Text
  import Auction
  import Teams
  import Players

  // ---------------------------------------------------------------------
  // Negative bids

  /** One tournament, one team with its whole budget of 100 left, and one
      unassigned player. */
  function FreshStore(): (s: Store)
    ensures Valid(s)
  {
    var s := Store({1}, map[1 := Team(1, "Lions", 100.0, 100.0, None, None)],
                   map[PlayerKey(1, "E1") := NewPlayer("Asha", "Batter")], 2);
    SpentNothing(s.players, 1);
    s
  }

  /** A bid of -50 is accepted and leaves 150 remaining of a 100 budget. */
  lemma NegativeAssignOverfills()
    ensures var r := Auction.Assign(FreshStore(), Auction.Assignment(1, 1, "E1", -50.0));
      && r.Ok?
      && r.value.teams[1].remaining == 150.0
      && !WithinBudget(r.value.teams[1])
  {
  }

  /** The same through a manual add. */
  lemma NegativeAddOverfills()
    ensures var r := Teams.AddPlayerToTeam(FreshStore(), 1, 1, Teams.NewEntry("E2", "Ben", "Bowler"), -50.0);
      && r.Ok?
      && r.value.teams[1].remaining == 150.0
      && !WithinBudget(r.value.teams[1])
  {
  }

  /** Assignment that refuses a negative bid before anything else. A team
      within its bounds stays within them, and no other team changes. */
  function AssignChecked(s: Store, a: Auction.Assignment): (r: Result<Store, Error>)
    ensures a.bid < 0.0 <==> r == Err(NegativeBid)
    ensures 0.0 <= a.bid ==> r == Auction.Assign(s, a)
    ensures r.Ok? ==> forall id :: id in s.teams && WithinBudget(s.teams[id]) ==> WithinBudget(r.value.teams[id])
  {
    if a.bid < 0.0 then Err(NegativeBid) else Auction.Assign(s, a)
  }

  /** Manual add that refuses a negative bid before anything else. */
  function AddPlayerChecked(s: Store, t: TournamentId, id: TeamId, e: Teams.NewEntry, bid: real): (r: Result<Store, Error>)
    ensures bid < 0.0 <==> r == Err(NegativeBid)
    ensures 0.0 <= bid ==> r == Teams.AddPlayerToTeam(s, t, id, e, bid)
    ensures r.Ok? ==> forall j :: j in s.teams && WithinBudget(s.teams[j]) ==> WithinBudget(r.value.teams[j])
  {
    if bid < 0.0 then Err(NegativeBid) else Teams.AddPlayerToTeam(s, t, id, e, bid)
  }

  // ---------------------------------------------------------------------
  // Replace-mode upload

  /** A team that has spent 40 of 100 on one assigned player. */
  function SoldStore(): (s: Store)
    ensures Valid(s)
  {
    var k := PlayerKey(1, "E1");
    var s := Store({1}, map[1 := Team(1, "Lions", 100.0, 60.0, None, None)],
                   map[k := Player("Asha", "Batter", Some(1), 40.0, true)], 2);
    SpentRemove(s.players, k, 1);
    assert s.players - {k} == map[];
    SpentNothing(map[], 1);
    s
  }

  /** "roster.csv" passes the file-type check. */
  lemma RosterCsvAllowed()
    ensures Players.AllowedFile("roster.csv")
  {
    var name := "roster" + "." + "csv";
    assert name == "roster.csv";
    assert "roster"[5] == 'r';
    ExtensionOfJoin("roster", "csv");
    assert Extension(name) == ".csv";
    var l := Lower(".csv");
    assert l[0] == '.' && l[1] == 'c' && l[2] == 's' && l[3] == 'v';
    assert l == Players.AllowedExtensions[0];
  }

  /** As written, a "replace" upload leaves every team of the tournament
      with its budget as it was but with nothing spent, so the ledger
      survives only where the team had spent nothing. */
  lemma ReplaceUploadDropsSpending(s: Store, t: TournamentId, fileName: string, rows: seq<Players.Row>, id: TeamId)
    requires Valid(s) && id in s.teams && s.teams[id].tournament == t
    requires Players.Upload(s, t, fileName, "replace", rows).Ok?
    ensures var s' := Players.Upload(s, t, fileName, "replace", rows).value.0;
      && s'.teams[id] == s.teams[id]
      && Spent(s'.players, id) == 0.0
      && (Ledger(s') ==> Spent(s.players, id) == 0.0)
  {
    var s' := Players.Upload(s, t, fileName, "replace", rows).value.0;
    var base := Players.WithoutTournament(s.players, t);
    forall k | k in s'.players
      ensures s'.players[k].team != Some(id)
    {
      if k in base {
        assert k in s.players && k.tournament != t;
      }
    }
    SpentNothing(s'.players, id);
  }

  /** Replacing the roster of the valid store above with any non-empty
      roster deletes the sold player but leaves the team at 60 of 100 with
      nothing spent. */
  lemma ReplaceUploadBreaksLedger(rows: seq<Players.Row>)
    requires |rows| > 0
    ensures Valid(SoldStore())
    ensures var r := Players.Upload(SoldStore(), 1, "roster.csv", "replace", rows);
      && r.Ok?
      && r.value.0.teams[1].remaining == 60.0
      && Spent(r.value.0.players, 1) == 0.0
      && !Ledger(r.value.0)
  {
    RosterCsvAllowed();
    ReplaceUploadDropsSpending(SoldStore(), 1, "roster.csv", rows, 1);
  }

  /** Every team of tournament `t` back at its full budget. */
  function RestoreBudgets(teams: map<TeamId, Team>, t: TournamentId): (r: map<TeamId, Team>)
    ensures r.Keys == teams.Keys
    ensures forall id :: id in teams && teams[id].tournament == t ==>
      r[id] == teams[id].(remaining := teams[id].total)
    ensures forall id :: id in teams && teams[id].tournament != t ==> r[id] == teams[id]
  {
    map id | id in teams :: if teams[id].tournament == t then teams[id].(remaining := teams[id].total) else teams[id]
  }

  /** Upload whose replace mode credits back what the deleted players cost:
      every player of a team belongs to the team's tournament, so all of a
      team's players go and its whole budget comes back. */
  function UploadCredited(s: Store, t: TournamentId, fileName: string, mode: string, rows: seq<Players.Row>): (r: Result<(Store, Players.UploadReport), Error>)
    ensures r.Err? <==> Players.Upload(s, t, fileName, mode, rows).Err?
    ensures r.Err? ==> r == Players.Upload(s, t, fileName, mode, rows)
    ensures r.Ok? ==>
      var u := Players.Upload(s, t, fileName, mode, rows).value;
      && r.value.1 == u.1
      && r.value.0.players == u.0.players
      && r.value.0.teams == (if mode == "replace" then RestoreBudgets(s.teams, t) else s.teams)
  {
    match Players.Upload(s, t, fileName, mode, rows)
    case Err(e) => Err(e)
    case Ok((s', report)) =>
      var teams := if mode == "replace" then RestoreBudgets(s'.teams, t) else s'.teams;
      Ok((s'.(teams := teams), report))
  }

  /** The ledger of one team after its tournament's roster was replaced:
      a team of that tournament has lost all its players, any other team
      has kept all of its own. */
  lemma ReplacedSpent(s: Store, t: TournamentId, ps': map<PlayerKey, Player>, id: TeamId)
    requires TeamsKnown(s) && id in s.teams
    requires forall k :: k in s.players && k.tournament != t ==> k in ps' && ps'[k] == s.players[k]
    requires forall k :: k in ps' && !(k in s.players && k.tournament != t) ==> ps'[k].team == None
    ensures Spent(ps', id) == if s.teams[id].tournament == t then 0.0 else Spent(s.players, id)
  {
    var base := Players.WithoutTournament(s.players, t);
    if s.teams[id].tournament == t {
      SpentNothing(ps', id);
    } else {
      var d := set k | k in s.players && k.tournament == t;
      assert base == s.players - d;
      SpentDropOthers(s.players, d, id);
      Players.SpentIgnoresNewcomers(base, ps', id);
    }
  }

  /** A store whose tournament `t` had its roster replaced and its teams
      restored to full budget is valid again. */
  lemma ReplacedStoreValid(s: Store, t: TournamentId, s': Store)
    requires Valid(s)
    requires s'.teams == RestoreBudgets(s.teams, t) && s'.nextTeamId == s.nextTeamId
    requires forall k :: k in s.players && k.tournament != t ==> k in s'.players && s'.players[k] == s.players[k]
    requires forall k :: k in s'.players && !(k in s.players && k.tournament != t) ==>
      s'.players[k] == NewPlayer(s'.players[k].name, s'.players[k].kind)
    ensures Valid(s')
  {
    forall id | id in s'.teams
      ensures s'.teams[id].remaining == s'.teams[id].total - Spent(s'.players, id)
    {
      ReplacedSpent(s, t, s'.players, id);
    }
    NamesUniqueKept(s.teams, s'.teams);
  }

  /** The corrected upload keeps every invariant in both modes. In replace
      mode the budget given back to each team of the tournament is exactly
      what it had spent. */
  lemma UploadCreditedPreservesValid(s: Store, t: TournamentId, fileName: string, mode: string, rows: seq<Players.Row>)
    requires Valid(s) && UploadCredited(s, t, fileName, mode, rows).Ok?
    ensures Valid(UploadCredited(s, t, fileName, mode, rows).value.0)
    ensures mode == "replace" ==> forall id :: id in s.teams && s.teams[id].tournament == t ==>
      UploadCredited(s, t, fileName, mode, rows).value.0.teams[id].remaining == s.teams[id].remaining + Spent(s.players, id)
  {
    var s' := UploadCredited(s, t, fileName, mode, rows).value.0;
    if mode != "replace" {
      Players.AppendUploadPreservesValid(s, t, fileName, mode, rows);
    } else {
      var u := Players.Upload(s, t, fileName, mode, rows).value.0;
      assert s'.players == u.players;
      ReplacedStoreValid(s, t, s');
    }
  }
}

=== FILE: auction.dfy ===
/** The auctioneer's endpoints: assigning a player to a team against its
    remaining budget, and the completion status of a tournament's auction. */
module Auction {
  import opened Results
  import opened Store

  /** The body of an assign request. */
  datatype Assignment = Assignment(tournament: TournamentId, team: TeamId, empId: string, bid: real)

  /** The player an assignment names. */
  function Target(a: Assignment): PlayerKey
  {
    PlayerKey(a.tournament, a.empId)
  }

  /** Assign a player during the auction. The team must exist in the
      tournament and afford the bid; then only a still-unassigned player
      is updated, and only then is the team debited. Any failure commits
      nothing. A negative bid is not rejected. */
  function Assign(s: Store, a: Assignment): (r: Result<Store, Error>)
    ensures !HasTeam(s, a.tournament, a.team) ==> r == Err(TeamNotFound)
    ensures HasTeam(s, a.tournament, a.team) ==>
      (r == Err(InsufficientBudget) <==> s.teams[a.team].remaining < a.bid)
    ensures r.Ok? <==>
      && HasTeam(s, a.tournament, a.team)
      && a.bid <= s.teams[a.team].remaining
      && Target(a) in s.players && !s.players[Target(a)].isAssigned
    ensures r.Err? && HasTeam(s, a.tournament, a.team) && a.bid <= s.teams[a.team].remaining ==>
      r == Err(NotFoundOrAlreadyAssigned)
    ensures r.Ok? ==>
      var s', k := r.value, Target(a);
      && s'.tournaments == s.tournaments && s'.nextTeamId == s.nextTeamId
      && s'.players.Keys == s.players.Keys
      && (forall j :: j in s.players && j != k ==> s'.players[j] == s.players[j])
      && s'.players[k].name == s.players[k].name && s'.players[k].kind == s.players[k].kind
      && s'.players[k].team == Some(a.team) && s'.players[k].bid == a.bid && s'.players[k].isAssigned
      && s'.teams.Keys == s.teams.Keys
      && (forall id :: id in s.teams && id != a.team ==> s'.teams[id] == s.teams[id])
      && s'.teams[a.team] == s.teams[a.team].(remaining := s.teams[a.team].remaining - a.bid)
  {
    if !HasTeam(s, a.tournament, a.team) then Err(TeamNotFound)
    else if s.teams[a.team].remaining < a.bid then Err(InsufficientBudget)
    else
      var k := Target(a);
      if !(k in s.players && !s.players[k].isAssigned) then Err(NotFoundOrAlreadyAssigned)
      else
        var sold := s.players[k].(team := Some(a.team), bid := a.bid, isAssigned := true);
        Ok(s.(players := s.players[k := sold],
              teams := Credit(s.teams, a.team, -a.bid)))
  }

  /** Assignment keeps every invariant, the ledger included: the debit equals
      the bid the player now carries. */
  lemma AssignPreservesValid(s: Store, a: Assignment)
    requires Valid(s) && Assign(s, a).Ok?
    ensures Valid(Assign(s, a).value)
  {
    var s', k := Assign(s, a).value, Target(a);
    forall id | id in s'.teams
      ensures s'.teams[id].remaining == s'.teams[id].total - Spent(s'.players, id)
    {
      SpentReplace(s.players, k, s'.players[k], id);
    }
    NamesUniqueKept(s.teams, s'.teams);
  }

  /** At most once: after a player has been assigned, no further assignment
      of it succeeds, whatever team or bid, so nothing more is debited. */
  lemma AssignAtMostOnce(s: Store, a: Assignment, again: Assignment)
    requires Assign(s, a).Ok?
    requires Target(again) == Target(a)
    ensures Assign(Assign(s, a).value, again).Err?
  {
  }

  // ---------------------------------------------------------------------
  // Auction status

  /** The reply of the status endpoint. */
  datatype AuctionStatus = AuctionStatus(totalPlayers: nat, assignedPlayers: nat, remainingPlayers: int, isComplete: bool)

  /** The players of tournament `t`. */
  function Roster(ps: map<PlayerKey, Player>, t: TournamentId): set<PlayerKey>
  {
    set k | k in ps && k.tournament == t
  }

  /** The players of tournament `t` with `is_assigned = 1`. */
  function Sold(ps: map<PlayerKey, Player>, t: TournamentId): (r: set<PlayerKey>)
    ensures r <= Roster(ps, t)
  {
    set k | k in ps && k.tournament == t && ps[k].isAssigned
  }

  lemma SubsetCard<T>(a: set<T>, b: set<T>)
    requires a <= b
    ensures |a| <= |b|
    ensures |a| == |b| ==> a == b
  {
    assert b == a + (b - a);
    assert |b| == |a| + |b - a|;
    if |a| == |b| {
      assert |b - a| == 0;
    }
  }

  /** Every player of the tournament is sold exactly when the sold set is
      the whole roster. */
  lemma AllSoldIff(ps: map<PlayerKey, Player>, t: TournamentId)
    ensures Sold(ps, t) == Roster(ps, t) <==> forall k :: k in ps && k.tournament == t ==> ps[k].isAssigned
  {
    if !(forall k :: k in ps && k.tournament == t ==> ps[k].isAssigned) {
      var k :| k in ps && k.tournament == t && !ps[k].isAssigned;
      assert k in Roster(ps, t) && k !in Sold(ps, t);
    }
  }

  /** The counts of the status endpoint: every player is either assigned or
      still remaining, and the auction is complete exactly when no player of
      the tournament is left unassigned (vacuously so with no players). */
  function Status(s: Store, t: TournamentId): (r: AuctionStatus)
    ensures r.totalPlayers == |Roster(s.players, t)| && r.assignedPlayers == |Sold(s.players, t)|
    ensures r.assignedPlayers <= r.totalPlayers && r.assignedPlayers + r.remainingPlayers == r.totalPlayers
    ensures r.isComplete <==> r.totalPlayers == r.assignedPlayers
    ensures r.isComplete <==> forall k :: k in s.players && k.tournament == t ==> s.players[k].isAssigned
    ensures (forall k :: k in s.players ==> k.tournament != t) ==> r == AuctionStatus(0, 0, 0, true)
  {
    var roster, sold := Roster(s.players, t), Sold(s.players, t);
    SubsetCard(sold, roster);
    AllSoldIff(s.players, t);
    AuctionStatus(|roster|, |sold|, |roster| - |sold|, |roster| == |sold|)
  }

  /** A successful assignment moves exactly one player of its tournament from
      remaining to assigned; other tournaments' status is untouched. */
  lemma AssignAdvancesStatus(s: Store, a: Assignment, t: TournamentId)
    requires Assign(s, a).Ok?
    ensures var before, after := Status(s, t), Status(Assign(s, a).value, t);
      && after.totalPlayers == before.totalPlayers
      && after.assignedPlayers == before.assignedPlayers + (if t == a.tournament then 1 else 0)
  {
    var s', k := Assign(s, a).value, Target(a);
    assert Roster(s'.players, t) == Roster(s.players, t);
    if t == a.tournament {
      assert Sold(s'.players, t) == Sold(s.players, t) + {k};
      assert k !in Sold(s.players, t);
    } else {
      assert Sold(s'.players, t) == Sold(s.players, t);
    }
  }
}

=== FILE: players.dfy ===
/** The player endpoints of a tournament: editing a player's details,
    deleting a player, and the bulk roster upload with its per-row
    validation, counting and error report. */
module Players {
  import opened Results
  import opened Store
  import opened Text
  import Auction

  // ---------------------------------------------------------------------
  // Update

  /** Change a player's name and/or type; fields not supplied stay. The
      assignment columns are never touched. */
  function UpdatePlayer(s: Store, t: TournamentId, empId: string, name: Option<string>, kind: Option<string>): (r: Result<Store, Error>)
    ensures PlayerKey(t, empId) !in s.players <==> r == Err(PlayerNotFound)
    ensures r.Ok? <==> PlayerKey(t, empId) in s.players
    ensures r.Ok? ==> r.value.tournaments == s.tournaments && r.value.nextTeamId == s.nextTeamId
    ensures r.Ok? ==> r.value.teams == s.teams && r.value.players.Keys == s.players.Keys
    ensures r.Ok? ==>
      var k := PlayerKey(t, empId);
      var (p, p') := (s.players[k], r.value.players[k]);
      && (forall j :: j in s.players && j != k ==> r.value.players[j] == s.players[j])
      && p'.team == p.team && p'.bid == p.bid && p'.isAssigned == p.isAssigned
      && p'.name == (if name.Some? then name.value else p.name)
      && p'.kind == (if kind.Some? then kind.value else p.kind)
  {
    var k := PlayerKey(t, empId);
    if k !in s.players then Err(PlayerNotFound)
    else
      var p := s.players[k];
      var p' := p.(name := if name.Some? then name.value else p.name,
                   kind := if kind.Some? then kind.value else p.kind);
      Ok(s.(players := s.players[k := p']))
  }

  /** An update that supplies no field changes nothing. */
  lemma UpdateNothingIsIdentity(s: Store, t: TournamentId, empId: string)
    requires PlayerKey(t, empId) in s.players
    ensures UpdatePlayer(s, t, empId, None, None) == Ok(s)
  {
    assert s.players[PlayerKey(t, empId) := s.players[PlayerKey(t, empId)]] == s.players;
  }

  lemma UpdatePlayerPreservesValid(s: Store, t: TournamentId, empId: string, name: Option<string>, kind: Option<string>)
    requires Valid(s) && UpdatePlayer(s, t, empId, name, kind).Ok?
    ensures Valid(UpdatePlayer(s, t, empId, name, kind).value)
  {
    var s' := UpdatePlayer(s, t, empId, name, kind).value;
    forall id | id in s'.teams
      ensures s'.teams[id].remaining == s'.teams[id].total - Spent(s'.players, id)
    {
      assert Charges(s'.players, id) == Charges(s.players, id);
    }
  }

  // ---------------------------------------------------------------------
  // Delete

  /** Python truthiness of the stored `team_id` and `bid_amount`: the
      handler credits the team only when both are non-zero. */
  predicate Refundable(p: Player)
  {
    p.team.Some? && p.team.value != 0 && p.bid != 0.0
  }

  /** Delete a player, first crediting its bid back to its team. */
  function DeletePlayer(s: Store, t: TournamentId, empId: string): (r: Result<Store, Error>)
    ensures PlayerKey(t, empId) !in s.players <==> r == Err(PlayerNotFound)
    ensures r.Ok? <==> PlayerKey(t, empId) in s.players
    ensures r.Ok? ==>
      var k := PlayerKey(t, empId);
      var p := s.players[k];
      && r.value.tournaments == s.tournaments && r.value.nextTeamId == s.nextTeamId
      && r.value.players == s.players - {k}
      && r.value.teams.Keys == s.teams.Keys
      && (forall id :: id in s.teams && (!Refundable(p) || p.team != Some(id)) ==> r.value.teams[id] == s.teams[id])
      && (Refundable(p) && p.team.value in s.teams ==>
            r.value.teams[p.team.value] == s.teams[p.team.value].(remaining := s.teams[p.team.value].remaining + p.bid))
  {
    var k := PlayerKey(t, empId);
    if k !in s.players then Err(PlayerNotFound)
    else
      var p := s.players[k];
      var teams := if Refundable(p) then Credit(s.teams, p.team.value, p.bid) else s.teams;
      Ok(s.(teams := teams, players := s.players - {k}))
  }

  lemma DeletePlayerPreservesValid(s: Store, t: TournamentId, empId: string)
    requires Valid(s) && DeletePlayer(s, t, empId).Ok?
    ensures Valid(DeletePlayer(s, t, empId).value)
  {
    var s', k := DeletePlayer(s, t, empId).value, PlayerKey(t, empId);
    forall id | id in s'.teams
      ensures s'.teams[id].remaining == s'.teams[id].total - Spent(s'.players, id)
    {
      SpentRemove(s.players, k, id);
    }
    NamesUniqueKept(s.teams, s'.teams);
  }

  /** Deleting a player right after assigning it restores every team's
      budget: the credit returns exactly the debit. */
  lemma AssignThenDeleteRestoresBudgets(s: Store, a: Auction.Assignment)
    requires Valid(s) && Auction.Assign(s, a).Ok?
    ensures var r := DeletePlayer(Auction.Assign(s, a).value, a.tournament, a.empId);
      r.Ok? && r.value.teams == s.teams && r.value.players == s.players - {Auction.Target(a)}
  {
    var s1 := Auction.Assign(s, a).value;
    var s2 := DeletePlayer(s1, a.tournament, a.empId).value;
    assert 0 < a.team;
    assert s2.teams[a.team] == s.teams[a.team];
  }

  // ---------------------------------------------------------------------
  // Roster upload

  /** One parsed row, each cell already turned into text. */
  datatype Row = Row(empId: string, name: string, kind: string)

  /** Why a row was skipped. A duplicate reports the emp_id cell as given. */
  datatype RowError = EmpIdRequired | NameRequired | TypeRequired | DuplicateRow(given: string)

  datatype RowOutcome = Added | Skipped(reason: RowError)

  /** A stripped cell that counts as absent: empty, or "nan" or "none" in
      any letter case (the text pandas and Python give missing cells). */
  predicate Absent(v: string)
  {
    v == "" || Lower(v) == "nan" || Lower(v) == "none"
  }

  /** Strip the three cells and reject the first one that is absent, in the
      order emp_id, name, type. */
  function CleanRow(row: Row): (r: Result<Row, RowError>)
    ensures r.Ok? <==> !Absent(Strip(row.empId)) && !Absent(Strip(row.name)) && !Absent(Strip(row.kind))
    ensures r.Ok? ==> r.value == Row(Strip(row.empId), Strip(row.name), Strip(row.kind))
    ensures r == Err(EmpIdRequired) <==> Absent(Strip(row.empId))
    ensures r == Err(NameRequired) <==> !Absent(Strip(row.empId)) && Absent(Strip(row.name))
    ensures r == Err(TypeRequired) <==>
      !Absent(Strip(row.empId)) && !Absent(Strip(row.name)) && Absent(Strip(row.kind))
  {
    var (e, n, k) := (Strip(row.empId), Strip(row.name), Strip(row.kind));
    if Absent(e) then Err(EmpIdRequired)
    else if Absent(n) then Err(NameRequired)
    else if Absent(k) then Err(TypeRequired)
    else Ok(Row(e, n, k))
  }

  /** "NaN" and "NONE" are absent cells; "Nan0" is not. */
  lemma AbsentExamples()
    ensures Absent("NaN") && Absent("NONE")
    ensures !Absent("Nan0")
  {
    assert Lower("NaN") == "nan";
    assert Lower("NONE") == "none";
    assert Lower("Nan0")[3] == '0';
  }

  /** A row's emp_id cell as given, paired with the outcome of validating
      the row. The upload validates each row, then admits it. */
  datatype Checked = Checked(given: string, clean: Result<Row, RowError>)

  function Check(row: Row): Checked
  {
    Checked(row.empId, CleanRow(row))
  }

  function CheckAll(rows: seq<Row>): (cs: seq<Checked>)
    ensures |cs| == |rows|
    ensures forall i :: 0 <= i < |rows| ==> cs[i] == Check(rows[i])
  {
    seq(|rows|, i requires 0 <= i < |rows| => Check(rows[i]))
  }

  /** The key a checked row is stored under in tournament `t`, when it is
      valid. */
  function KeyOf(t: TournamentId, c: Checked): set<PlayerKey>
  {
    if c.clean.Ok? then {PlayerKey(t, c.clean.value.empId)} else {}
  }

  function KeysOf(t: TournamentId, cs: seq<Checked>): set<PlayerKey>
    decreases |cs|
  {
    if |cs| == 0 then {} else KeyOf(t, cs[0]) + KeysOf(t, cs[1..])
  }

  /** The keys of the valid rows. */
  function ValidKeys(t: TournamentId, rows: seq<Row>): set<PlayerKey>
  {
    KeysOf(t, CheckAll(rows))
  }

  /** Insert a checked row as an unassigned player of tournament `t`, or
      skip it: for its validation error, or as a duplicate of a stored key. */
  function Admit(t: TournamentId, ps: map<PlayerKey, Player>, c: Checked): (r: (map<PlayerKey, Player>, RowOutcome))
    ensures r.1 == Added <==> c.clean.Ok? && PlayerKey(t, c.clean.value.empId) !in ps
    ensures r.1 == Added ==>
      r.0 == ps[PlayerKey(t, c.clean.value.empId) := NewPlayer(c.clean.value.name, c.clean.value.kind)]
    ensures r.1.Skipped? ==> r.0 == ps
    ensures c.clean.Err? ==> r.1 == Skipped(c.clean.error)
    ensures c.clean.Ok? && r.1.Skipped? ==> r.1 == Skipped(DuplicateRow(c.given))
    ensures r.0.Keys == ps.Keys + KeyOf(t, c)
  {
    match c.clean
    case Err(e) => (ps, Skipped(e))
    case Ok(v) =>
      var k := PlayerKey(t, v.empId);
      if k in ps then (ps, Skipped(DuplicateRow(c.given)))
      else (ps[k := NewPlayer(v.name, v.kind)], Added)
  }

  /** The per-row rule of the upload, stated for a raw row: checking it and
      admitting it inserts it as an unassigned player of tournament `t`
      exactly when it is valid and its key is new. */
  lemma ImportRowRule(t: TournamentId, ps: map<PlayerKey, Player>, row: Row)
    ensures var r := Admit(t, ps, Check(row));
      r.1 == Added <==> CleanRow(row).Ok? && PlayerKey(t, CleanRow(row).value.empId) !in ps
    ensures var r := Admit(t, ps, Check(row));
      r.1 == Added ==>
      var c := CleanRow(row).value;
      r.0 == ps[PlayerKey(t, c.empId) := NewPlayer(c.name, c.kind)]
    ensures var r := Admit(t, ps, Check(row));
      r.1.Skipped? ==> r.0 == ps
    ensures var r := Admit(t, ps, Check(row));
      CleanRow(row).Err? ==> r.1 == Skipped(CleanRow(row).error)
    ensures var r := Admit(t, ps, Check(row));
      CleanRow(row).Ok? && r.1.Skipped? ==> r.1 == Skipped(DuplicateRow(row.empId))
  {
  }

  /** Number of rows added and skipped. */
  function Tally(outs: seq<RowOutcome>): (r: (nat, nat))
    ensures r.0 + r.1 == |outs|
  {
    if |outs| == 0 then (0, 0)
    else
      var (added, skipped) := Tally(outs[1..]);
      if outs[0] == Added then (added + 1, skipped) else (added, skipped + 1)
  }

  /** The first count is the number of rows added. */
  lemma {:induction false} TallyCountsAdded(outs: seq<RowOutcome>)
    ensures Tally(outs).0 == multiset(outs)[Added]
    ensures Tally(outs).1 == |outs| - multiset(outs)[Added]
    decreases |outs|
  {
    if |outs| > 0 {
      TallyCountsAdded(outs[1..]);
      assert outs == [outs[0]] + outs[1..];
    }
  }

  /** Admit the checked rows in order; a skipped row, a duplicate
      included, does not stop the ones after it. */
  function AdmitAll(t: TournamentId, ps: map<PlayerKey, Player>, cs: seq<Checked>): (r: (map<PlayerKey, Player>, seq<RowOutcome>))
    ensures |r.1| == |cs|
    ensures |r.0| == |ps| + Tally(r.1).0
    ensures forall k :: k in ps ==> k in r.0 && r.0[k] == ps[k]
    ensures forall k :: k in r.0 && k !in ps ==>
      k.tournament == t && r.0[k].team == None && !r.0[k].isAssigned && r.0[k].bid == 0.0
    decreases |cs|
  {
    if |cs| == 0 then (ps, [])
    else
      var (ps1, o) := Admit(t, ps, cs[0]);
      var (ps2, os) := AdmitAll(t, ps1, cs[1..]);
      assert ([o] + os)[1..] == os;
      (ps2, [o] + os)
  }

  /** Unfolding `AdmitAll` by one row. */
  lemma AdmitAllStep(t: TournamentId, ps: map<PlayerKey, Player>, cs: seq<Checked>)
    requires |cs| > 0
    ensures var (ps1, o) := Admit(t, ps, cs[0]);
      var (ps2, os) := AdmitAll(t, ps1, cs[1..]);
      AdmitAll(t, ps, cs) == (ps2, [o] + os)
  {
  }

  lemma {:induction false} AdmitAllKeys(t: TournamentId, ps: map<PlayerKey, Player>, cs: seq<Checked>)
    ensures AdmitAll(t, ps, cs).0.Keys == ps.Keys + KeysOf(t, cs)
    decreases |cs|
  {
    if |cs| > 0 {
      AdmitAllKeys(t, Admit(t, ps, cs[0]).0, cs[1..]);
    }
  }

  lemma {:induction false} AdmitAllOutcome(t: TournamentId, ps: map<PlayerKey, Player>, cs: seq<Checked>, i: nat)
    requires i < |cs|
    ensures var (ps', outs) := AdmitAll(t, ps, cs);
      var c := cs[i].clean;
      && (c.Err? ==> outs[i] == Skipped(c.error))
      && (c.Ok? ==>
            var k := PlayerKey(t, c.value.empId);
            && (outs[i] == Added <==> k !in ps && k !in KeysOf(t, cs[..i]))
            && (outs[i] != Added ==> outs[i] == Skipped(DuplicateRow(cs[i].given)))
            && (outs[i] == Added ==> k in ps' && ps'[k] == NewPlayer(c.value.name, c.value.kind)))
    decreases |cs|
  {
    AdmitAllStep(t, ps, cs);
    var ps1 := Admit(t, ps, cs[0]).0;
    if i > 0 {
      assert cs[1..][i - 1] == cs[i];
      assert cs[..i][1..] == cs[1..][..i - 1];
      AdmitAllOutcome(t, ps1, cs[1..], i - 1);
    } else {
      assert cs[..i] == [];
    }
  }

  lemma {:induction false} AdmitAllNewcomer(t: TournamentId, ps: map<PlayerKey, Player>, cs: seq<Checked>, k: PlayerKey)
    requires k in AdmitAll(t, ps, cs).0 && k !in ps
    ensures var (ps', outs) := AdmitAll(t, ps, cs);
      exists i :: 0 <= i < |cs| && outs[i] == Added && cs[i].clean.Ok? &&
        var c := cs[i].clean.value;
        k == PlayerKey(t, c.empId) && ps'[k] == NewPlayer(c.name, c.kind)
    decreases |cs|
  {
    AdmitAllStep(t, ps, cs);
    var (ps1, o) := Admit(t, ps, cs[0]);
    var (ps2, os) := AdmitAll(t, ps1, cs[1..]);
    if k in ps1 {
      assert ([o] + os)[0] == Added;
    } else {
      AdmitAllNewcomer(t, ps1, cs[1..], k);
      var j :| 0 <= j < |cs[1..]| && os[j] == Added && cs[1..][j].clean.Ok? &&
        var c := cs[1..][j].clean.value;
        k == PlayerKey(t, c.empId) && ps2[k] == NewPlayer(c.name, c.kind);
      assert cs[1..][j] == cs[j + 1] && ([o] + os)[j + 1] == os[j];
    }
  }

  /** The roster upload's rows in order, each inserted or skipped. Existing
      players are never modified, and the keys afterwards are the keys
      before plus the keys of the valid rows: no valid row is lost, a row
      whose key is already taken adds nothing, and nothing else appears. */
  function ImportRows(t: TournamentId, ps: map<PlayerKey, Player>, rows: seq<Row>): (r: (map<PlayerKey, Player>, seq<RowOutcome>))
    ensures |r.1| == |rows|
    ensures |r.0| == |ps| + Tally(r.1).0
    ensures r.0.Keys == ps.Keys + ValidKeys(t, rows)
    ensures forall k :: k in ps ==> k in r.0 && r.0[k] == ps[k]
    ensures forall k :: k in r.0 && k !in ps ==>
      k.tournament == t && r.0[k].team == None && !r.0[k].isAssigned && r.0[k].bid == 0.0
  {
    AdmitAllKeys(t, ps, CheckAll(rows));
    AdmitAll(t, ps, CheckAll(rows))
  }

  lemma CheckAllPrefix(rows: seq<Row>, i: nat)
    requires i <= |rows|
    ensures CheckAll(rows[..i]) == CheckAll(rows)[..i]
  {
    assert forall j :: 0 <= j < i ==> CheckAll(rows[..i])[j] == Check(rows[j]) == CheckAll(rows)[..i][j];
  }

  /** The outcome of row `i`: a row failing validation is skipped for that
      reason; a valid row is added exactly when its key is neither stored
      already nor taken by an earlier valid row, and is otherwise skipped as
      a duplicate; an added row's player is in the result as inserted. */
  lemma ImportRowsOutcome(t: TournamentId, ps: map<PlayerKey, Player>, rows: seq<Row>, i: nat)
    requires i < |rows|
    ensures var (ps', outs) := ImportRows(t, ps, rows);
      var c := CleanRow(rows[i]);
      && (c.Err? ==> outs[i] == Skipped(c.error))
      && (c.Ok? ==>
            var k := PlayerKey(t, c.value.empId);
            && (outs[i] == Added <==> k !in ps && k !in ValidKeys(t, rows[..i]))
            && (outs[i] != Added ==> outs[i] == Skipped(DuplicateRow(rows[i].empId)))
            && (outs[i] == Added ==> k in ps' && ps'[k] == NewPlayer(c.value.name, c.value.kind)))
  {
    AdmitAllOutcome(t, ps, CheckAll(rows), i);
    CheckAllPrefix(rows, i);
  }

  /** Every player of `ps'` that `ps` lacks comes from a valid row, under
      that row's stripped emp_id and with its stripped name and type. */
  ghost predicate InsertedFromRows(t: TournamentId, rows: seq<Row>, ps: map<PlayerKey, Player>, ps': map<PlayerKey, Player>)
  {
    forall k :: k in ps' && k !in ps ==>
      exists i :: 0 <= i < |rows| && CleanRow(rows[i]).Ok? &&
        (var c := CleanRow(rows[i]).value;
         k == PlayerKey(t, c.empId) && ps'[k] == NewPlayer(c.name, c.kind))
  }

  /** Every player the rows insert comes from a valid row that was added. */
  lemma ImportRowsNewcomers(t: TournamentId, ps: map<PlayerKey, Player>, rows: seq<Row>)
    ensures InsertedFromRows(t, rows, ps, ImportRows(t, ps, rows).0)
  {
    var cs := CheckAll(rows);
    var (ps', outs) := AdmitAll(t, ps, cs);
    forall k | k in ps' && k !in ps
      ensures exists i :: 0 <= i < |rows| && CleanRow(rows[i]).Ok? &&
                (var c := CleanRow(rows[i]).value;
                 k == PlayerKey(t, c.empId) && ps'[k] == NewPlayer(c.name, c.kind))
    {
      AdmitAllNewcomer(t, ps, cs, k);
      var i :| 0 <= i < |cs| && outs[i] == Added && cs[i].clean.Ok? &&
        var c := cs[i].clean.value;
        k == PlayerKey(t, c.empId) && ps'[k] == NewPlayer(c.name, c.kind);
      assert cs[i] == Check(rows[i]);
    }
  }

  /** A line of the upload's error list. */
  datatype ErrorLine = RowFailed(row: nat, reason: RowError) | MoreErrors(count: nat)

  /** The error of every skipped row, numbered as the spreadsheet shows it:
      the outcome at position i is row `first + i`. */
  function RowErrors(outs: seq<RowOutcome>, first: nat): (r: seq<ErrorLine>)
    ensures |r| == Tally(outs).1
    ensures forall j :: 0 <= j < |r| ==>
      r[j].RowFailed? && first <= r[j].row < first + |outs| && outs[r[j].row - first] == Skipped(r[j].reason)
    ensures forall i, j :: 0 <= i < j < |r| ==> r[i].row < r[j].row
    decreases |outs|
  {
    if |outs| == 0 then []
    else
      var rest := RowErrors(outs[1..], first + 1);
      if outs[0].Added? then rest
      else [RowFailed(first, outs[0].reason)] + rest
  }

  /** No skipped row is left out of the error lines. */
  lemma {:induction false} RowErrorsComplete(outs: seq<RowOutcome>, first: nat, i: nat)
    requires i < |outs| && outs[i].Skipped?
    ensures RowFailed(first + i, outs[i].reason) in RowErrors(outs, first)
    decreases |outs|
  {
    if i > 0 {
      RowErrorsComplete(outs[1..], first + 1, i - 1);
      assert outs[1..][i - 1] == outs[i];
    }
  }

  /** The error lines the response may carry. */
  const MaxListedErrors := 10

  /** The response's error list: absent when there are no errors, otherwise
      the first ten in order, then one line counting all the others. */
  function ReportErrors(errors: seq<ErrorLine>): (r: Option<seq<ErrorLine>>)
    ensures r.None? <==> |errors| == 0
    ensures r.Some? ==>
      var n := if |errors| < MaxListedErrors then |errors| else MaxListedErrors;
      && |r.value| == n + (if |errors| > MaxListedErrors then 1 else 0)
      && r.value[..n] == errors[..n]
      && (|errors| > MaxListedErrors ==> r.value[n] == MoreErrors(|errors| - n))
  {
    if |errors| == 0 then None
    else if |errors| <= MaxListedErrors then Some(errors)
    else Some(errors[..MaxListedErrors] + [MoreErrors(|errors| - MaxListedErrors)])
  }

  /** The number of errors a list of lines stands for. */
  function Accounted(lines: seq<ErrorLine>): nat
  {
    if |lines| == 0 then 0 else Weight(lines[0]) + Accounted(lines[1..])
  }

  function Weight(line: ErrorLine): nat
  {
    match line
    case RowFailed(_, _) => 1
    case MoreErrors(n) => n
  }

  lemma {:induction false} AccountedAppend(a: seq<ErrorLine>, b: seq<ErrorLine>)
    ensures Accounted(a + b) == Accounted(a) + Accounted(b)
    decreases |a|
  {
    if |a| == 0 {
      assert a + b == b;
    } else {
      assert (a + b)[0] == a[0];
      assert (a + b)[1..] == a[1..] + b;
      AccountedAppend(a[1..], b);
    }
  }

  lemma {:induction false} AccountedRowLines(lines: seq<ErrorLine>)
    requires forall j :: 0 <= j < |lines| ==> lines[j].RowFailed?
    ensures Accounted(lines) == |lines|
    decreases |lines|
  {
    if |lines| > 0 {
      AccountedRowLines(lines[1..]);
    }
  }

  /** Truncation loses no error: those not listed are counted. */
  lemma ReportAccountsForAll(errors: seq<ErrorLine>)
    requires forall j :: 0 <= j < |errors| ==> errors[j].RowFailed?
    ensures var r := ReportErrors(errors);
      (r.None? && |errors| == 0) || (r.Some? && Accounted(r.value) == |errors|)
  {
    if |errors| > MaxListedErrors {
      var head := errors[..MaxListedErrors];
      AccountedAppend(head, [MoreErrors(|errors| - MaxListedErrors)]);
      AccountedRowLines(head);
      assert Accounted([MoreErrors(|errors| - MaxListedErrors)]) == |errors| - MaxListedErrors;
    } else {
      AccountedRowLines(errors);
    }
  }

  /** The extensions the upload accepts, compared after lower-casing. */
  const AllowedExtensions: seq<string> := [".csv", ".xlsx", ".xls"]

  /** The upload's file-type test: the lower-cased extension is one of the
      allowed ones, so an accepted name ends in a dot and three or four
      further characters. */
  function AllowedFile(fileName: string): (ok: bool)
    ensures ok ==> var e := Extension(fileName); (|e| == 4 || |e| == 5) && e[0] == '.'
  {
    Lower(Extension(fileName)) in AllowedExtensions
  }

  lemma LowerDot(suffix: string)
    ensures Lower("." + suffix) == "." + Lower(suffix)
  {
  }

  lemma AllowedDotted(ls: string)
    ensures "." + ls in AllowedExtensions <==> ls in ["csv", "xlsx", "xls"]
  {
    var l := "." + ls;
    assert l[1..] == ls;
    if ls == "csv" {
      assert l == ".csv";
    } else if ls == "xlsx" {
      assert l == ".xlsx";
    } else if ls == "xls" {
      assert l == ".xls";
    }
  }

  /** For a file name `stem.suffix` the extension test looks at the suffix alone, in any
      letter case: csv, xlsx and xls pass and nothing else does. */
  lemma AllowedFileIff(stem: string, suffix: string)
    requires NamedStem(stem)
    requires forall i :: 0 <= i < |suffix| ==> suffix[i] != '.' && suffix[i] != '/'
    ensures AllowedFile(stem + "." + suffix) <==> Lower(suffix) in ["csv", "xlsx", "xls"]
  {
    ExtensionOfJoin(stem, suffix);
    LowerDot(suffix);
    AllowedDotted(Lower(suffix));
  }

  /** The upload's response details. */
  datatype UploadReport = UploadReport(
    fileName: string,
    fileType: string,
    mode: string,
    totalRows: nat,
    playersAdded: nat,
    playersSkipped: nat,
    errors: Option<seq<ErrorLine>>)

  /** The players of every other tournament. */
  function WithoutTournament(ps: map<PlayerKey, Player>, t: TournamentId): (r: map<PlayerKey, Player>)
    ensures forall k :: k in r <==> k in ps && k.tournament != t
    ensures forall k :: k in r ==> r[k] == ps[k]
  {
    map k | k in ps && k.tournament != t :: ps[k]
  }

  /** Upload a roster. The file type is checked first, then the tournament,
      then that there are rows. Mode "replace" first deletes every player
      of the tournament, assigned or not, without crediting any team; any
      other mode appends. Every row is then either added or skipped. */
  function Upload(s: Store, t: TournamentId, fileName: string, mode: string, rows: seq<Row>): (r: Result<(Store, UploadReport), Error>)
    ensures !AllowedFile(fileName) <==> r == Err(InvalidFileType)
    ensures AllowedFile(fileName) && t !in s.tournaments ==> r == Err(TournamentNotFound)
    ensures AllowedFile(fileName) && t in s.tournaments && |rows| == 0 ==> r == Err(EmptyFile)
    ensures r.Ok? <==> AllowedFile(fileName) && t in s.tournaments && |rows| > 0
    ensures r.Ok? ==>
      var (s', report) := r.value;
      var base := if mode == "replace" then WithoutTournament(s.players, t) else s.players;
      && s'.teams == s.teams && s'.tournaments == s.tournaments && s'.nextTeamId == s.nextTeamId
      && report.totalRows == |rows|
      && report.playersAdded + report.playersSkipped == |rows|
      && |s'.players| == |base| + report.playersAdded
      && s'.players.Keys == base.Keys + ValidKeys(t, rows)
      && report.playersAdded == |ValidKeys(t, rows) - base.Keys|
      && (forall k :: k in base ==> k in s'.players && s'.players[k] == base[k])
      && (forall k :: k in s'.players && k !in base ==>
            k.tournament == t && s'.players[k] == NewPlayer(s'.players[k].name, s'.players[k].kind))
      && InsertedFromRows(t, rows, base, s'.players)
      && (report.errors.None? <==> report.playersSkipped == 0)
      && s'.players == ImportRows(t, base, rows).0
      && report.errors == ReportErrors(RowErrors(ImportRows(t, base, rows).1, 2))
      && report.fileName == fileName && report.mode == mode
      && report.fileType == Lower(Extension(fileName))
  {
    if !AllowedFile(fileName) then Err(InvalidFileType)
    else if t !in s.tournaments then Err(TournamentNotFound)
    else if |rows| == 0 then Err(EmptyFile)
    else
      var base := if mode == "replace" then WithoutTournament(s.players, t) else s.players;
      var (ps, outs) := ImportRows(t, base, rows);
      var (added, skipped) := Tally(outs);
      ImportRowsNewcomers(t, base, rows);
      UnionCard(base.Keys, ValidKeys(t, rows));
      var report := UploadReport(fileName, Lower(Extension(fileName)), mode, |rows|, added, skipped,
                                 ReportErrors(RowErrors(outs, 2)));
      Ok((s.(players := ps), report))
  }

  lemma UnionCard<T>(a: set<T>, b: set<T>)
    ensures |a + b| == |a| + |b - a|
  {
    assert a + b == a + (b - a);
  }

  /** Inserting only unassigned players changes no team's spending. */
  lemma SpentIgnoresNewcomers(ps: map<PlayerKey, Player>, ps': map<PlayerKey, Player>, id: TeamId)
    requires forall k :: k in ps ==> k in ps' && ps'[k] == ps[k]
    requires forall k :: k in ps' && k !in ps ==> ps'[k].team == None
    ensures Spent(ps', id) == Spent(ps, id)
  {
    var d := ps'.Keys - ps.Keys;
    SpentDropOthers(ps', d, id);
    assert ps' - d == ps;
  }

  /** An upload in any mode other than "replace" keeps every invariant. */
  lemma AppendUploadPreservesValid(s: Store, t: TournamentId, fileName: string, mode: string, rows: seq<Row>)
    requires Valid(s) && mode != "replace"
    requires Upload(s, t, fileName, mode, rows).Ok?
    ensures Valid(Upload(s, t, fileName, mode, rows).value.0)
  {
    var s' := Upload(s, t, fileName, mode, rows).value.0;
    forall id | id in s'.teams
      ensures s'.teams[id].remaining == s'.teams[id].total - Spent(s'.players, id)
    {
      SpentIgnoresNewcomers(s.players, s'.players, id);
    }
  }
}

=== FILE: results.dfy ===
/** Optional values and success/failure results shared by every handler model. */
module Results {

  /** A nullable column or an optional request field. */
  datatype Option<+T> = None | Some(value: T)

  /** The outcome of a handler: `Ok` carries what was committed, `Err` means
      the handler raised before committing, so the caller's store stands. */
  datatype Result<+T, +E> = Ok(value: T) | Err(error: E)
}

=== FILE: session.dfy ===
/** The service as a whole: every mutating request as one atomic step on
    the store, using the corrected assign, manual add and upload. A request
    that fails leaves the store as it was. */
module Session {
  import opened Results
  import opened Store
  import Auction
  import Teams
  import Players
  import Amended

  datatype Request =
    | AssignPlayer(a: Auction.Assignment)
    | CreateTeam(t: TournamentId, name: string, budget: real)
    | UpdateTeam(t: TournamentId, id: TeamId, name: string, newTotal: Option<real>)
    | DeleteTeam(t: TournamentId, id: TeamId)
    | AddPlayerToTeam(t: TournamentId, id: TeamId, entry: Teams.NewEntry, bid: real)
    | RemovePlayerFromTeam(t: TournamentId, id: TeamId, empId: string)
    | SetCaptain(t: TournamentId, id: TeamId, captain: Option<string>, vice: Option<string>)
    | UpdatePlayer(t: TournamentId, empId: string, newName: Option<string>, newKind: Option<string>)
    | DeletePlayer(t: TournamentId, empId: string)
    | UploadPlayers(t: TournamentId, fileName: string, mode: string, rows: seq<Players.Row>)

  /** Commit a handler's result, or keep the store when it failed. */
  function Commit(s: Store, r: Result<Store, Error>): Store
  {
    if r.Ok? then r.value else s
  }

  /** The store after one request. */
  function Apply(s: Store, q: Request): Store
  {
    match q
    case AssignPlayer(a) => Commit(s, Amended.AssignChecked(s, a))
    case CreateTeam(t, name, budget) =>
      var r := Teams.CreateTeam(s, t, name, budget);
      if r.Ok? then r.value.0 else s
    case UpdateTeam(t, id, name, newTotal) => Commit(s, Teams.UpdateTeam(s, t, id, name, newTotal))
    case DeleteTeam(t, id) => Commit(s, Teams.DeleteTeam(s, t, id))
    case AddPlayerToTeam(t, id, e, bid) => Commit(s, Amended.AddPlayerChecked(s, t, id, e, bid))
    case RemovePlayerFromTeam(t, id, empId) => Commit(s, Teams.RemovePlayerFromTeam(s, t, id, empId))
    case SetCaptain(t, id, c, v) => Commit(s, Teams.SetCaptain(s, t, id, c, v))
    case UpdatePlayer(t, empId, name, kind) => Commit(s, Players.UpdatePlayer(s, t, empId, name, kind))
    case DeletePlayer(t, empId) => Commit(s, Players.DeletePlayer(s, t, empId))
    case UploadPlayers(t, f, mode, rows) =>
      var r := Amended.UploadCredited(s, t, f, mode, rows);
      if r.Ok? then r.value.0 else s
  }

  /** The store after a sequence of requests, in order. */
  function Run(s: Store, qs: seq<Request>): Store
    decreases |qs|
  {
    if |qs| == 0 then s else Run(Apply(s, qs[0]), qs[1..])
  }

  /** Every request keeps the store valid, the ledger included. */
  lemma ApplyPreservesValid(s: Store, q: Request)
    requires Valid(s)
    ensures Valid(Apply(s, q))
  {
    match q
    case AssignPlayer(a) =>
      if Amended.AssignChecked(s, a).Ok? { Auction.AssignPreservesValid(s, a); }
    case CreateTeam(t, name, budget) =>
      if Teams.CreateTeam(s, t, name, budget).Ok? { Teams.CreateTeamPreservesValid(s, t, name, budget); }
    case UpdateTeam(t, id, name, newTotal) =>
      if Teams.UpdateTeam(s, t, id, name, newTotal).Ok? { Teams.UpdateTeamPreservesValid(s, t, id, name, newTotal); }
    case DeleteTeam(t, id) =>
      if Teams.DeleteTeam(s, t, id).Ok? { Teams.DeleteTeamPreservesValid(s, t, id); }
    case AddPlayerToTeam(t, id, e, bid) =>
      if Amended.AddPlayerChecked(s, t, id, e, bid).Ok? { Teams.AddPlayerToTeamPreservesValid(s, t, id, e, bid); }
    case RemovePlayerFromTeam(t, id, empId) =>
      if Teams.RemovePlayerFromTeam(s, t, id, empId).Ok? { Teams.RemovePlayerFromTeamPreservesValid(s, t, id, empId); }
    case SetCaptain(t, id, c, v) =>
      if Teams.SetCaptain(s, t, id, c, v).Ok? { Teams.SetCaptainPreservesValid(s, t, id, c, v); }
    case UpdatePlayer(t, empId, name, kind) =>
      if Players.UpdatePlayer(s, t, empId, name, kind).Ok? { Players.UpdatePlayerPreservesValid(s, t, empId, name, kind); }
    case DeletePlayer(t, empId) =>
      if Players.DeletePlayer(s, t, empId).Ok? { Players.DeletePlayerPreservesValid(s, t, empId); }
    case UploadPlayers(t, f, mode, rows) =>
      if Amended.UploadCredited(s, t, f, mode, rows).Ok? { Amended.UploadCreditedPreservesValid(s, t, f, mode, rows); }
  }

  /** The ledger holds at all times: after any sequence of requests. */
  lemma {:induction false} RunPreservesValid(s: Store, qs: seq<Request>)
    requires Valid(s)
    ensures Valid(Run(s, qs))
    decreases |qs|
  {
    if |qs| > 0 {
      ApplyPreservesValid(s, qs[0]);
      RunPreservesValid(Apply(s, qs[0]), qs[1..]);
    }
  }

  /** A freshly initialised database, with empty `teams` and `players`
      tables and the team ids issued from 1, is valid. */
  lemma EmptyStoreValid(tournaments: set<TournamentId>)
    ensures Valid(Store(tournaments, map[], map[], 1))
  {
  }

  /** From a freshly initialised database, the ledger and the other
      invariants hold after any sequence of requests. */
  lemma RunFromEmptyStoreValid(tournaments: set<TournamentId>, qs: seq<Request>)
    ensures Valid(Run(Store(tournaments, map[], map[], 1), qs))
  {
    EmptyStoreValid(tournaments);
    RunPreservesValid(Store(tournaments, map[], map[], 1), qs);
  }
}

=== FILE: store.dfy ===
/** The persistent state of the auction: the `teams` and `players` tables of
    the schema as immutable maps, the constraints the schema declares, and
    the budget ledger that ties a team's remaining budget to the bids of the
    players it holds. Budgets are exact reals, not IEEE doubles. */
module Store {
  import opened Results
  import opened Sums

  type TeamId = int
  type TournamentId = int

  /** A row of `teams`. */
  datatype Team = Team(
    tournament: TournamentId,
    name: string,
    total: real,
    remaining: real,
    captain: Option<string>,
    viceCaptain: Option<string>)

  /** The unique key of a row of `players`: (tournament_id, emp_id). */
  datatype PlayerKey = PlayerKey(tournament: TournamentId, empId: string)

  /** A row of `players`; `kind` is the free-text `type` column.
      `team_id` and `is_assigned` are separate columns, kept separate here so that
      their agreement is something to prove rather than something assumed. */
  datatype Player = Player(name: string, kind: string, team: Option<TeamId>, bid: real, isAssigned: bool)

  /** Both tables plus the tournament ids that exist and the next id the
      `teams` AUTOINCREMENT column will issue. Keying `players` by
      `PlayerKey` makes emp_id unique per tournament by construction. */
  datatype Store = Store(
    tournaments: set<TournamentId>,
    teams: map<TeamId, Team>,
    players: map<PlayerKey, Player>,
    nextTeamId: TeamId)

  /** The distinct failures the handlers report. */
  datatype Error =
    | TournamentNotFound
    | TeamNotFound
    | PlayerNotFound
    | InsufficientBudget
    | NotFoundOrAlreadyAssigned
    | DuplicateTeamName
    | DuplicateEmpId
    | CaptainNotOnTeam
    | ViceCaptainNotOnTeam
    | InvalidFileType
    | EmptyFile
    | NegativeBid

  /** A freshly inserted player: the column defaults `bid_amount = 0` and
      `is_assigned = 0` apply and `team_id` is null. */
  function NewPlayer(name: string, kind: string): (p: Player)
    ensures p.team == None && !p.isAssigned && p.bid == 0.0
    ensures p.name == name && p.kind == kind
  {
    Player(name, kind, None, 0.0, false)
  }

  /** `SELECT ... FROM teams WHERE id = ? AND tournament_id = ?` finds a row. */
  predicate HasTeam(s: Store, t: TournamentId, id: TeamId)
  {
    id in s.teams && s.teams[id].tournament == t
  }

  /** Whether some team of tournament `t` in `teams` is called `name`. */
  predicate NameInUse(teams: map<TeamId, Team>, t: TournamentId, name: string)
  {
    exists id :: id in teams && teams[id].tournament == t && teams[id].name == name
  }

  /** `UPDATE teams SET remaining_budget = remaining_budget + amount WHERE id = id`:
      a statement that matches no row changes nothing. */
  function Credit(teams: map<TeamId, Team>, id: TeamId, amount: real): (r: map<TeamId, Team>)
    ensures r.Keys == teams.Keys
    ensures id in teams ==> r[id] == teams[id].(remaining := teams[id].remaining + amount)
    ensures forall other :: other in teams && other != id ==> r[other] == teams[other]
  {
    if id in teams then teams[id := teams[id].(remaining := teams[id].remaining + amount)] else teams
  }

  // ---------------------------------------------------------------------
  // The ledger

  /** What player `p` costs team `id`: its bid when it sits on that team. */
  function Charge(p: Player, id: TeamId): real
  {
    if p.team == Some(id) then p.bid else 0.0
  }

  function Charges(ps: map<PlayerKey, Player>, id: TeamId): (c: map<PlayerKey, real>)
    ensures c.Keys == ps.Keys
  {
    map k | k in ps :: Charge(ps[k], id)
  }

  /** The amount team `id` has spent: the sum of the bids of its players. */
  ghost function Spent(ps: map<PlayerKey, Player>, id: TeamId): real
  {
    Sum(Charges(ps, id))
  }

  /** Writing `p` at key `k` moves the team's spending by exactly the change
      in that one player's charge; every other player's charge stays. */
  lemma SpentReplace(ps: map<PlayerKey, Player>, k: PlayerKey, p: Player, id: TeamId)
    ensures Spent(ps[k := p], id)
         == Spent(ps, id) - (if k in ps then Charge(ps[k], id) else 0.0) + Charge(p, id)
  {
    var c := Charges(ps[k := p], id);
    SumPick(c, k);
    assert c - {k} == Charges(ps - {k}, id);
    if k in ps {
      SpentRemove(ps, k, id);
    } else {
      assert ps - {k} == ps;
    }
  }

  /** Deleting the row at `k` lowers the team's spending by that row's charge. */
  lemma SpentRemove(ps: map<PlayerKey, Player>, k: PlayerKey, id: TeamId)
    requires k in ps
    ensures Spent(ps - {k}, id) == Spent(ps, id) - Charge(ps[k], id)
  {
    var c := Charges(ps, id);
    SumPick(c, k);
    assert c - {k} == Charges(ps - {k}, id);
  }

  /** A team none of whose players is in `ps` has spent nothing. */
  lemma SpentNothing(ps: map<PlayerKey, Player>, id: TeamId)
    requires forall k :: k in ps ==> ps[k].team != Some(id)
    ensures Spent(ps, id) == 0.0
  {
    SumOfZeros(Charges(ps, id));
  }

  /** Deleting only rows that do not sit on team `id` leaves its spending. */
  lemma SpentDropOthers(ps: map<PlayerKey, Player>, d: set<PlayerKey>, id: TeamId)
    requires forall k :: k in d && k in ps ==> ps[k].team != Some(id)
    ensures Spent(ps - d, id) == Spent(ps, id)
  {
    var c := Charges(ps, id);
    SumDropZeros(c, d);
    assert c - d == Charges(ps - d, id);
  }

  // ---------------------------------------------------------------------
  // Invariants

  /** `is_assigned` is 1 exactly when `team_id` is not null. */
  ghost predicate FlagsAgree(ps: map<PlayerKey, Player>)
  {
    forall k :: k in ps ==> (ps[k].isAssigned <==> ps[k].team.Some?)
  }

  /** An unassigned player carries the default bid of 0. */
  ghost predicate UnsoldBidZero(ps: map<PlayerKey, Player>)
  {
    forall k :: k in ps && !ps[k].isAssigned ==> ps[k].bid == 0.0
  }

  /** A player's team exists and belongs to the player's own tournament. */
  ghost predicate TeamsKnown(s: Store)
  {
    forall k :: k in s.players && s.players[k].team.Some? ==>
      s.players[k].team.value in s.teams &&
      s.teams[s.players[k].team.value].tournament == k.tournament
  }

  /** Team ids are issued from 1 upwards by AUTOINCREMENT and never reused. */
  ghost predicate IdsIssued(s: Store)
  {
    && 0 < s.nextTeamId
    && forall id :: id in s.teams ==> 0 < id < s.nextTeamId
  }

  /** `UNIQUE(tournament_id, name)` on `teams`. */
  ghost predicate NamesUnique(teams: map<TeamId, Team>)
  {
    forall a, b :: a in teams && b in teams && a != b && teams[a].tournament == teams[b].tournament ==>
      teams[a].name != teams[b].name
  }

  /** Uniqueness of names survives any change that keeps every team's
      tournament and name. */
  lemma NamesUniqueKept(teams: map<TeamId, Team>, teams': map<TeamId, Team>)
    requires NamesUnique(teams)
    requires teams'.Keys <= teams.Keys
    requires forall id :: id in teams' ==>
      teams'[id].tournament == teams[id].tournament && teams'[id].name == teams[id].name
    ensures NamesUnique(teams')
  {
  }

  /** The ledger: remaining budget is total budget minus the bids of the
      players currently on the team. */
  ghost predicate Ledger(s: Store)
  {
    forall id :: id in s.teams ==> s.teams[id].remaining == s.teams[id].total - Spent(s.players, id)
  }

  /** Under the ledger, a team that no player sits on has its whole budget
      left. */
  lemma LedgerIdleTeamFull(s: Store, id: TeamId)
    requires Ledger(s) && id in s.teams
    requires forall k :: k in s.players ==> s.players[k].team != Some(id)
    ensures s.teams[id].remaining == s.teams[id].total
  {
    SpentNothing(s.players, id);
  }

  ghost predicate Valid(s: Store)
  {
    && FlagsAgree(s.players)
    && UnsoldBidZero(s.players)
    && TeamsKnown(s)
    && IdsIssued(s)
    && NamesUnique(s.teams)
    && Ledger(s)
  }

  /** The budget bounds a team is meant to stay within. */
  ghost predicate WithinBudget(t: Team)
  {
    0.0 <= t.remaining <= t.total
  }
}

=== FILE: sums.dfy ===
/** Finite sums over maps, used to total the bids charged to a team. */
module Sums {

  /** The sum of all values of `m`, in no particular order. */
  ghost function Sum<K>(m: map<K, real>): real
    decreases |m|
  {
    if m == map[] then 0.0
    else
      var k :| k in m;
      m[k] + Sum(m - {k})
  }

  /** Any key may be taken out first: the sum does not depend on the order. */
  lemma {:induction false} SumPick<K>(m: map<K, real>, k: K)
    requires k in m
    ensures Sum(m) == m[k] + Sum(m - {k})
    decreases |m|
  {
    assert m != map[];
    var j :| j in m && Sum(m) == m[j] + Sum(m - {j});
    if j != k {
      var mj, mk := m - {j}, m - {k};
      assert mj.Keys == m.Keys - {j} && mk.Keys == m.Keys - {k};
      assert |mj| < |m| && |mk| < |m|;
      assert k in mj && mj[k] == m[k];
      assert j in mk && mk[j] == m[j];
      SumPick(mj, k);
      SumPick(mk, j);
      assert mj - {k} == mk - {j};
    }
  }

  /** Dropping keys whose values are zero leaves the sum unchanged. */
  lemma {:induction false} SumDropZeros<K>(m: map<K, real>, d: set<K>)
    requires forall k :: k in d && k in m ==> m[k] == 0.0
    ensures Sum(m - d) == Sum(m)
    decreases |m|
  {
    if k :| k in d && k in m {
      SumPick(m, k);
      SumDropZeros(m - {k}, d);
      assert (m - {k}) - d == m - d;
    } else {
      assert m - d == m;
    }
  }

  /** A map whose values are all zero sums to zero. */
  lemma {:induction false} SumOfZeros<K>(m: map<K, real>)
    requires forall k :: k in m ==> m[k] == 0.0
    ensures Sum(m) == 0.0
  {
    SumDropZeros(m, m.Keys);
    assert m - m.Keys == map[];
  }
}

=== FILE: teams.dfy ===
/** The team endpoints of a tournament: creation, renaming and budget
    rebase, deletion, adding a player straight onto a team, removing one,
    and choosing captains. */
module Teams {
  import opened Results
  import opened Store
  import Auction

  // ---------------------------------------------------------------------
  // Create

  /** Insert a team whose remaining budget starts at its total budget. The
      tournament must exist and the name must be free in it. */
  function CreateTeam(s: Store, t: TournamentId, name: string, budget: real): (r: Result<(Store, TeamId), Error>)
    ensures t !in s.tournaments ==> r == Err(TournamentNotFound)
    ensures t in s.tournaments ==> (r == Err(DuplicateTeamName) <==> NameInUse(s.teams, t, name))
    ensures r.Ok? <==> t in s.tournaments && !NameInUse(s.teams, t, name)
    ensures r.Ok? ==>
      var (s', id) := r.value;
      && id == s.nextTeamId && s'.nextTeamId == s.nextTeamId + 1
      && (IdsIssued(s) ==> id !in s.teams && 0 < id < s'.nextTeamId)
      && s'.teams == s.teams[id := Team(t, name, budget, budget, None, None)]
      && s'.players == s.players && s'.tournaments == s.tournaments
  {
    if t !in s.tournaments then Err(TournamentNotFound)
    else if NameInUse(s.teams, t, name) then Err(DuplicateTeamName)
    else
      var id := s.nextTeamId;
      var team := Team(t, name, budget, budget, None, None);
      Ok((s.(teams := s.teams[id := team], nextTeamId := id + 1), id))
  }

  lemma CreateTeamPreservesValid(s: Store, t: TournamentId, name: string, budget: real)
    requires Valid(s) && CreateTeam(s, t, name, budget).Ok?
    ensures Valid(CreateTeam(s, t, name, budget).value.0)
  {
    var (s', id) := CreateTeam(s, t, name, budget).value;
    forall other | other in s'.teams
      ensures s'.teams[other].remaining == s'.teams[other].total - Spent(s'.players, other)
    {
      if other == id {
        SpentNothing(s.players, id);
      }
    }
    forall a, b | a in s'.teams && b in s'.teams && a != b && s'.teams[a].tournament == s'.teams[b].tournament
      ensures s'.teams[a].name != s'.teams[b].name
    {
      if a == id {
        assert !NameInUse(s.teams, t, name);
        assert b in s.teams;
      } else if b == id {
        assert !NameInUse(s.teams, t, name);
        assert a in s.teams;
      }
    }
  }

  // ---------------------------------------------------------------------
  // Update: rename and rebase

  /** Change a team's total budget while keeping what it has already spent.
      Nothing stops the new total from falling below the amount spent. */
  function Rebase(team: Team, newTotal: real): (r: Team)
    ensures r.total == newTotal
    ensures r.total - r.remaining == team.total - team.remaining
    ensures r.tournament == team.tournament && r.name == team.name
    ensures r.captain == team.captain && r.viceCaptain == team.viceCaptain
  {
    var spent := team.total - team.remaining;
    team.(total := newTotal, remaining := newTotal - spent)
  }

  /** A rebase below the amount spent leaves a negative remaining budget. */
  lemma RebaseBelowSpentOverdraws(team: Team, newTotal: real)
    requires newTotal < team.total - team.remaining
    ensures Rebase(team, newTotal).remaining < 0.0
  {
  }

  /** Rename a team and, when a new total is given, rebase its budget. The
      name is always written; a clash with another team of the tournament
      violates the schema's uniqueness and nothing is committed. */
  function UpdateTeam(s: Store, t: TournamentId, id: TeamId, name: string, newTotal: Option<real>): (r: Result<Store, Error>)
    ensures !HasTeam(s, t, id) ==> r == Err(TeamNotFound)
    ensures HasTeam(s, t, id) ==> (r == Err(DuplicateTeamName) <==> NameInUse(s.teams - {id}, t, name))
    ensures r.Ok? <==> HasTeam(s, t, id) && !NameInUse(s.teams - {id}, t, name)
    ensures r.Ok? ==>
      && r.value.tournaments == s.tournaments && r.value.nextTeamId == s.nextTeamId
      && r.value.players == s.players
      && r.value.teams.Keys == s.teams.Keys
      && (forall other :: other in s.teams && other != id ==> r.value.teams[other] == s.teams[other])
      && r.value.teams[id].name == name
      && (newTotal.None? ==> r.value.teams[id] == s.teams[id].(name := name))
      && (newTotal.Some? ==> r.value.teams[id] == Rebase(s.teams[id], newTotal.value).(name := name))
  {
    if !HasTeam(s, t, id) then Err(TeamNotFound)
    else if NameInUse(s.teams - {id}, t, name) then Err(DuplicateTeamName)
    else
      var renamed := s.teams[id].(name := name);
      var team := if newTotal.Some? then Rebase(renamed, newTotal.value) else renamed;
      Ok(s.(teams := s.teams[id := team]))
  }

  lemma UpdateTeamPreservesValid(s: Store, t: TournamentId, id: TeamId, name: string, newTotal: Option<real>)
    requires Valid(s) && UpdateTeam(s, t, id, name, newTotal).Ok?
    ensures Valid(UpdateTeam(s, t, id, name, newTotal).value)
  {
    var s' := UpdateTeam(s, t, id, name, newTotal).value;
    forall a, b | a in s'.teams && b in s'.teams && a != b && s'.teams[a].tournament == s'.teams[b].tournament
      ensures s'.teams[a].name != s'.teams[b].name
    {
      if a == id {
        assert !NameInUse(s.teams - {id}, t, name);
        assert b in s.teams - {id};
      } else if b == id {
        assert !NameInUse(s.teams - {id}, t, name);
        assert a in s.teams - {id};
      }
    }
  }

  // ---------------------------------------------------------------------
  // Delete

  /** A player released by a team deletion: unassigned, bid reset. */
  function Released(p: Player): Player
  {
    p.(team := None, isAssigned := false, bid := 0.0)
  }

  /** Delete a team. Every player on it becomes unassigned with a zero bid,
      and no budget is credited anywhere: the team's ledger goes with it. */
  function DeleteTeam(s: Store, t: TournamentId, id: TeamId): (r: Result<Store, Error>)
    ensures !HasTeam(s, t, id) <==> r == Err(TeamNotFound)
    ensures r.Ok? <==> HasTeam(s, t, id)
    ensures r.Ok? ==>
      && r.value.tournaments == s.tournaments && r.value.nextTeamId == s.nextTeamId
      && r.value.teams == s.teams - {id}
      && r.value.players.Keys == s.players.Keys
      && (forall k :: k in s.players && s.players[k].team == Some(id) ==>
            var p := r.value.players[k];
            p.team == None && !p.isAssigned && p.bid == 0.0
            && p.name == s.players[k].name && p.kind == s.players[k].kind)
      && (forall k :: k in s.players && s.players[k].team != Some(id) ==> r.value.players[k] == s.players[k])
  {
    if !HasTeam(s, t, id) then Err(TeamNotFound)
    else
      var ps := map k | k in s.players :: if s.players[k].team == Some(id) then Released(s.players[k]) else s.players[k];
      Ok(s.(players := ps, teams := s.teams - {id}))
  }

  lemma DeleteTeamPreservesValid(s: Store, t: TournamentId, id: TeamId)
    requires Valid(s) && DeleteTeam(s, t, id).Ok?
    ensures Valid(DeleteTeam(s, t, id).value)
  {
    var s' := DeleteTeam(s, t, id).value;
    forall other | other in s'.teams
      ensures s'.teams[other].remaining == s'.teams[other].total - Spent(s'.players, other)
    {
      assert Charges(s'.players, other) == Charges(s.players, other);
    }
    NamesUniqueKept(s.teams, s'.teams);
  }

  // ---------------------------------------------------------------------
  // Add a player directly to a team

  /** The body of a manual add: the new player's identity. */
  datatype NewEntry = NewEntry(empId: string, name: string, kind: string)

  /** Insert a player already assigned to the team and debit the bid. The
      team is checked first, then its budget, then the emp_id uniqueness;
      a clash rolls back both the insert and the debit. */
  function AddPlayerToTeam(s: Store, t: TournamentId, id: TeamId, e: NewEntry, bid: real): (r: Result<Store, Error>)
    ensures !HasTeam(s, t, id) ==> r == Err(TeamNotFound)
    ensures HasTeam(s, t, id) ==> (r == Err(InsufficientBudget) <==> s.teams[id].remaining < bid)
    ensures HasTeam(s, t, id) && bid <= s.teams[id].remaining && PlayerKey(t, e.empId) in s.players ==>
      r == Err(DuplicateEmpId)
    ensures r.Ok? <==>
      HasTeam(s, t, id) && bid <= s.teams[id].remaining && PlayerKey(t, e.empId) !in s.players
    ensures r.Ok? ==>
      var k := PlayerKey(t, e.empId);
      && r.value.tournaments == s.tournaments && r.value.nextTeamId == s.nextTeamId
      && r.value.players == s.players[k := Player(e.name, e.kind, Some(id), bid, true)]
      && r.value.teams.Keys == s.teams.Keys
      && r.value.teams[id] == s.teams[id].(remaining := s.teams[id].remaining - bid)
      && (forall other :: other in s.teams && other != id ==> r.value.teams[other] == s.teams[other])
  {
    if !HasTeam(s, t, id) then Err(TeamNotFound)
    else if s.teams[id].remaining < bid then Err(InsufficientBudget)
    else
      var k := PlayerKey(t, e.empId);
      if k in s.players then Err(DuplicateEmpId)
      else
        Ok(s.(players := s.players[k := Player(e.name, e.kind, Some(id), bid, true)],
              teams := Credit(s.teams, id, -bid)))
  }

  lemma AddPlayerToTeamPreservesValid(s: Store, t: TournamentId, id: TeamId, e: NewEntry, bid: real)
    requires Valid(s) && AddPlayerToTeam(s, t, id, e, bid).Ok?
    ensures Valid(AddPlayerToTeam(s, t, id, e, bid).value)
  {
    var s', k := AddPlayerToTeam(s, t, id, e, bid).value, PlayerKey(t, e.empId);
    forall other | other in s'.teams
      ensures s'.teams[other].remaining == s'.teams[other].total - Spent(s'.players, other)
    {
      SpentReplace(s.players, k, s'.players[k], other);
    }
    NamesUniqueKept(s.teams, s'.teams);
  }

  // ---------------------------------------------------------------------
  // Remove a player from a team

  /** Remove a player that sits on this exact team: credit its bid back to
      the team, then delete the player row. */
  function RemovePlayerFromTeam(s: Store, t: TournamentId, id: TeamId, empId: string): (r: Result<Store, Error>)
    ensures r.Ok? <==> PlayerKey(t, empId) in s.players && s.players[PlayerKey(t, empId)].team == Some(id)
    ensures r.Err? ==> r == Err(PlayerNotFound)
    ensures r.Ok? ==>
      var k := PlayerKey(t, empId);
      && r.value.tournaments == s.tournaments && r.value.nextTeamId == s.nextTeamId
      && r.value.players == s.players - {k}
      && r.value.teams.Keys == s.teams.Keys
      && (id in s.teams ==> r.value.teams[id] == s.teams[id].(remaining := s.teams[id].remaining + s.players[k].bid))
      && (forall other :: other in s.teams && other != id ==> r.value.teams[other] == s.teams[other])
  {
    var k := PlayerKey(t, empId);
    if !(k in s.players && s.players[k].team == Some(id)) then Err(PlayerNotFound)
    else Ok(s.(teams := Credit(s.teams, id, s.players[k].bid), players := s.players - {k}))
  }

  lemma RemovePlayerFromTeamPreservesValid(s: Store, t: TournamentId, id: TeamId, empId: string)
    requires Valid(s) && RemovePlayerFromTeam(s, t, id, empId).Ok?
    ensures Valid(RemovePlayerFromTeam(s, t, id, empId).value)
  {
    var s', k := RemovePlayerFromTeam(s, t, id, empId).value, PlayerKey(t, empId);
    forall other | other in s'.teams
      ensures s'.teams[other].remaining == s'.teams[other].total - Spent(s'.players, other)
    {
      SpentRemove(s.players, k, other);
    }
    NamesUniqueKept(s.teams, s'.teams);
  }

  /** Round trip: removing a player right after assigning it restores every
      team's budget exactly; only the player row itself is gone. */
  lemma AssignThenRemoveRestoresBudgets(s: Store, a: Auction.Assignment)
    requires Auction.Assign(s, a).Ok?
    ensures var s1 := Auction.Assign(s, a).value;
      var r := RemovePlayerFromTeam(s1, a.tournament, a.team, a.empId);
      && r.Ok?
      && r.value.teams == s.teams
      && r.value.players == s.players - {Auction.Target(a)}
  {
  }

  /** Round trip: removing a player right after adding it to a team gives
      back exactly the store before the add. */
  lemma AddThenRemoveIsIdentity(s: Store, t: TournamentId, id: TeamId, e: NewEntry, bid: real)
    requires AddPlayerToTeam(s, t, id, e, bid).Ok?
    ensures var s1 := AddPlayerToTeam(s, t, id, e, bid).value;
      RemovePlayerFromTeam(s1, t, id, e.empId) == Ok(s)
  {
    var s1 := AddPlayerToTeam(s, t, id, e, bid).value;
    var s2 := RemovePlayerFromTeam(s1, t, id, e.empId).value;
    assert s2.players == s.players;
    assert s2.teams == s.teams;
  }

  // ---------------------------------------------------------------------
  // Captains

  /** Python truthiness of an optional text field: present and non-empty. */
  predicate Given(v: Option<string>)
  {
    v.Some? && v.value != ""
  }

  /** `SELECT * FROM players WHERE emp_id = ? AND team_id = ?` finds a row. */
  predicate OnTeam(ps: map<PlayerKey, Player>, empId: string, id: TeamId)
  {
    exists k :: k in ps && k.empId == empId && ps[k].team == Some(id)
  }

  /** Set the captain and vice-captain of a team. Each one that is given must
      be a player of this team; both fields are then written as received,
      so an absent one clears the column. */
  function SetCaptain(s: Store, t: TournamentId, id: TeamId, captain: Option<string>, vice: Option<string>): (r: Result<Store, Error>)
    ensures !HasTeam(s, t, id) ==> r == Err(TeamNotFound)
    ensures HasTeam(s, t, id) ==>
      (r == Err(CaptainNotOnTeam) <==> Given(captain) && !OnTeam(s.players, captain.value, id))
    ensures HasTeam(s, t, id) && (Given(captain) ==> OnTeam(s.players, captain.value, id)) ==>
      (r == Err(ViceCaptainNotOnTeam) <==> Given(vice) && !OnTeam(s.players, vice.value, id))
    ensures r.Ok? <==>
      && HasTeam(s, t, id)
      && (Given(captain) ==> OnTeam(s.players, captain.value, id))
      && (Given(vice) ==> OnTeam(s.players, vice.value, id))
    ensures r.Ok? ==>
      && r.value.tournaments == s.tournaments && r.value.nextTeamId == s.nextTeamId
      && r.value.players == s.players
      && r.value.teams == s.teams[id := s.teams[id].(captain := captain, viceCaptain := vice)]
  {
    if !HasTeam(s, t, id) then Err(TeamNotFound)
    else if Given(captain) && !OnTeam(s.players, captain.value, id) then Err(CaptainNotOnTeam)
    else if Given(vice) && !OnTeam(s.players, vice.value, id) then Err(ViceCaptainNotOnTeam)
    else Ok(s.(teams := s.teams[id := s.teams[id].(captain := captain, viceCaptain := vice)]))
  }

  lemma SetCaptainPreservesValid(s: Store, t: TournamentId, id: TeamId, captain: Option<string>, vice: Option<string>)
    requires Valid(s) && SetCaptain(s, t, id, captain, vice).Ok?
    ensures Valid(SetCaptain(s, t, id, captain, vice).value)
  {
  }
}

=== FILE: text.dfy ===
/** The string handling the roster upload relies on: Python's `str.strip()`,
    lower-casing as it affects the ASCII words compared against, and the
    extension split of `os.path.splitext` on POSIX paths. */
module Text {

  /** The characters for which Python's `str.isspace()` holds; these are
      what `str.strip()` removes from both ends. */
  predicate IsSpace(c: char)
  {
    || c == ' '
    || '\t' <= c <= '\r'
    || '\U{1C}' <= c <= '\U{1F}'
    || c == '\U{85}' || c == '\U{A0}' || c == '\U{1680}'
    || '\U{2000}' <= c <= '\U{200A}'
    || c == '\U{2028}' || c == '\U{2029}' || c == '\U{202F}' || c == '\U{205F}' || c == '\U{3000}'
  }

  /** The index of the first non-whitespace character of `s` at or after
      `i`, or `|s|` when there is none. */
  function SkipSpaces(s: string, i: nat): (r: nat)
    requires i <= |s|
    ensures i <= r <= |s|
    ensures forall k :: i <= k < r ==> IsSpace(s[k])
    ensures r == |s| || !IsSpace(s[r])
    decreases |s| - i
  {
    if i < |s| && IsSpace(s[i]) then SkipSpaces(s, i + 1) else i
  }

  /** One past the last non-whitespace character of `s[lo..hi]`, or `lo`
      when there is none. */
  function BackSpaces(s: string, lo: nat, hi: nat): (r: nat)
    requires lo <= hi <= |s|
    ensures lo <= r <= hi
    ensures forall k :: r <= k < hi ==> IsSpace(s[k])
    ensures r == lo || !IsSpace(s[r - 1])
  {
    if lo < hi && IsSpace(s[hi - 1]) then BackSpaces(s, lo, hi - 1) else hi
  }

  /** Python's `s.strip()`: the longest run of `s` that neither starts nor
      ends with whitespace, obtained by cutting whitespace only. */
  function Strip(s: string): (r: string)
    ensures var lead := SkipSpaces(s, 0);
      && lead + |r| <= |s| && r == s[lead..lead + |r|]
      && (forall i :: 0 <= i < lead ==> IsSpace(s[i]))
      && (forall i :: lead + |r| <= i < |s| ==> IsSpace(s[i]))
    ensures r == [] || (!IsSpace(r[0]) && !IsSpace(r[|r| - 1]))
  {
    var lead := SkipSpaces(s, 0);
    var end := BackSpaces(s, lead, |s|);
    assert lead < end ==> s[lead..end][0] == s[lead] && s[lead..end][end - lead - 1] == s[end - 1];
    s[lead..end]
  }

  /** A string with no whitespace at either end is left alone. */
  lemma StripKeepsTrimmed(s: string)
    requires s == [] || (!IsSpace(s[0]) && !IsSpace(s[|s| - 1]))
    ensures Strip(s) == s
  {
    assert SkipSpaces(s, 0) == 0;
  }

  /** A string is left alone by `strip()` exactly when it has no
      whitespace at either end; in particular stripping is idempotent. */
  lemma StripFixedPoints(s: string)
    ensures Strip(s) == s <==> (s == [] || (!IsSpace(s[0]) && !IsSpace(s[|s| - 1])))
    ensures Strip(Strip(s)) == Strip(s)
  {
    if s == [] || (!IsSpace(s[0]) && !IsSpace(s[|s| - 1])) {
      StripKeepsTrimmed(s);
    }
    StripKeepsTrimmed(Strip(s));
  }

  function LowerChar(c: char): char
  {
    if 'A' <= c <= 'Z' then (c as int + 32) as char else c
  }

  /** Lower-casing of ASCII letters; all other characters are kept. */
  function Lower(s: string): (r: string)
    ensures |r| == |s|
    ensures forall i :: 0 <= i < |s| ==> r[i] == LowerChar(s[i])
  {
    seq(|s|, i requires 0 <= i < |s| => LowerChar(s[i]))
  }

  /** Python's `s.rfind(c)`: the last position of `c` in `s`, or -1. */
  function LastIndexOf(s: string, c: char): (r: int)
    ensures -1 <= r < |s|
    ensures 0 <= r ==> s[r] == c
    ensures forall i :: r < i < |s| ==> s[i] != c
  {
    if |s| == 0 then -1
    else if s[|s| - 1] == c then |s| - 1
    else LastIndexOf(s[..|s| - 1], c)
  }

  /** The extension `os.path.splitext` splits off a POSIX path: from the
      last dot of the last path component, provided that component has a
      non-dot character before that dot; otherwise the empty string. */
  function Extension(path: string): (r: string)
    ensures r == [] || (|r| <= |path| && r == path[|path| - |r|..] && r[0] == '.')
    ensures forall i :: 0 < i < |r| ==> r[i] != '.' && r[i] != '/'
    ensures r != [] ==>
      exists i :: 0 <= i < |path| - |r| && path[i] != '.' && path[i] != '/' &&
        forall j :: i < j < |path| ==> path[j] != '/'
    ensures r == [] ==>
      forall i, j :: 0 <= i < j < |path| && path[i] != '.' && path[i] != '/' && path[j] == '.' ==>
        exists m :: i < m < |path| && path[m] == '/'
  {
    var sep := LastIndexOf(path, '/');
    var dot := LastIndexOf(path, '.');
    if sep < dot && exists i :: sep < i < dot && path[i] != '.' then path[dot..] else ""
  }

  /** The last path component of `stem` holds a character other than a dot,
      so a dot after `stem` does not start a hidden name. */
  predicate NamedStem(stem: string)
  {
    exists i :: 0 <= i < |stem| && stem[i] != '.' && stem[i] != '/' &&
      forall j :: i < j < |stem| ==> stem[j] != '/'
  }

  /** Joining a named stem (trailing dots allowed, as in "roster.") to a
      dot-free, slash-free suffix yields exactly that suffix as the
      extension. */
  lemma ExtensionOfJoin(stem: string, suffix: string)
    requires NamedStem(stem)
    requires forall i :: 0 <= i < |suffix| ==> suffix[i] != '.' && suffix[i] != '/'
    ensures Extension(stem + "." + suffix) == "." + suffix
  {
    var path := stem + "." + suffix;
    var dot := LastIndexOf(path, '.');
    var sep := LastIndexOf(path, '/');
    var w :| 0 <= w < |stem| && stem[w] != '.' && stem[w] != '/' &&
      forall j :: w < j < |stem| ==> stem[j] != '/';
    assert path[|stem|] == '.';
    assert forall i :: |stem| < i < |path| ==> path[i] == suffix[i - |stem| - 1];
    assert dot == |stem|;
    assert forall j :: w <= j < |path| ==> path[j] != '/';
    assert sep < w;
    assert path[w] != '.';
    assert path[dot..] == "." + suffix;
  }

  /** A file name made of leading dots and one dot-free suffix, such as
      ".csv" or "..csv", has no extension under `os.path.splitext`: the
      extension never starts inside the leading dots of a name. */
  lemma HiddenNameHasNoExtension(dots: string, suffix: string)
    requires forall i :: 0 <= i < |dots| ==> dots[i] == '.'
    requires forall i :: 0 <= i < |suffix| ==> suffix[i] != '.' && suffix[i] != '/'
    ensures Extension(dots + "." + suffix) == ""
  {
    var path := dots + "." + suffix;
    assert forall i :: 0 <= i <= |dots| ==> path[i] == '.';
    assert forall i :: |dots| < i < |path| ==> path[i] == suffix[i - |dots| - 1];
  }
}
